=== FILE: README.md ===
# Mini-games in Dafny: tic-tac-toe, memory matching, card guess

This project models the game logic of three browser mini-games and proves
properties of that model:

- **Tic-tac-toe** (`Tic-Tac-Toe/script.js`): the nine-cell board, the win
  test over the eight winning combos, `makeMove`, the grid click handler, the
  three computer players (random, "medium" probe, minimax) and the two
  resets. Modules `TicTacToeBoard`, `Minimax` and `TicTacToe`.
- **Memory matching** (`Memory-Matching-Game/script.js`): the deck built from
  the difficulty table and shuffled, the flip/match state machine of the card
  click handler, the mismatch delay and the `m:ss` timer text. Modules
  `MemoryGame` and `TimerText`.
- **Card guess** (`Card-Guess-Game/script.js`): four fruit cards, the select,
  reshuffle-and-hide and guess cycle. Module `CardGuess`.
- Both card games share the in-place Fisher-Yates `shuffle`, modelled once in
  `FisherYates`. `Wrappers` holds `Option`; `Fruits` names the eight icons.

Modelling choices:

- `Math.random()` becomes a supplied choice. For the shuffle, `picks[i]` is the
  `j` drawn at step `i`, and the only constraint is `picks[i] <= i`, the range
  `floor(random * (i + 1))` produces. For `easyMove` the draw is the position
  `k` in the list of empty cells.
- Timers become explicit events that the caller applies: the 500 ms
  `computerMove` (`TicTacToe.ComputerMove`), the 3 s `resetGame`
  (`TicTacToe.ResetGame`), the 1 s mismatch step (`MemoryGame.UnflipFires`),
  the 1 s timer tick (`MemoryGame.Tick`) and the 1 s reshuffle
  (`CardGuess.ReshuffleFires`). Callbacks that a restart does not cancel stay
  pending in the state. In the memory game, `startGame` neither clears
  `isCheckingCards` nor cancels the mismatch timeout, which later clears the
  new game's `flippedCards` (`StaleUnflip`). In the card-guess game,
  `initializeGame` does not cancel a scheduled reshuffle (`pendingReshuffles`).
  The tic-tac-toe click handler does not check whose turn it is, so a click
  during the 500 ms wait plays O's mark
  (`TicTacToe.ClickDuringWaitBreaksAlternation`). `TicTacToe.ClickGuarded`
  adds that check, and the alternation invariant is proved for it together
  with the pending computer move (`TicTacToe.SessionInv`).
- DOM state that the logic reads is part of the state: a tic-tac-toe cell is
  `taken` exactly when it is non-null, and a memory card's `flipped` class and
  a guess card's `hidden` class and `data-icon` are sequences indexed by card.
- The settings (the vs-computer checkbox, the difficulty selects) are
  parameters of the operations that read them.
- The minimax search has no depth preference and keeps the first best move in
  index order. `TicTacToe.HardMovePrefersFirstWinOverFastest` shows the effect
  on `[X, X, _, O, O, _, _, _, _]` with O to move: the hard player answers
  cell 2, which wins two moves later, not cell 5, which wins at once. A search
  that preferred faster wins would answer 5; this one answers 2.
- `mediumMove` and the card-guess comparison are modelled both as written and
  corrected; see Findings. `TicTacToe.ComputerMove` plays `mediumMove` as
  written, as `computerMove` does. The corrected medium player is proved to
  block on its own. The card-guess invariant is proved for both click handlers.

## Model

| member | source | states |
|---|---|---|
| FisherYates.Swap | Memory-Matching-Game/script.js:31 | the destructuring swap exchanges positions `i` and `j` and leaves every other position alone |
| FisherYates.SwapIsPermutation | Memory-Matching-Game/script.js:31 | one swap keeps the multiset of elements |
| FisherYates.StepsIsPermutation | Memory-Matching-Game/script.js:29-32 | any run of the loop from step `i` down to step 1 keeps the length and the multiset of elements |
| FisherYates.ShuffledIsPermutation | Card-Guess-Game/script.js:14-20 | every outcome of `shuffle`, for every admissible sequence of random draws, is a permutation of its input |
| FisherYates.Shuffle | Memory-Matching-Game/script.js:28-34 | the in-place array loop returns a permutation of its input, and exactly the result of the functional shuffle for the same draws |
| FisherYates.DistinctIffSingleCopies | Card-Guess-Game/script.js:7 | a sequence has no repeated element exactly when every element occurs at most once in its multiset |
| FisherYates.PermutationKeepsDistinct | Card-Guess-Game/script.js:30 | a permutation of a list without repeats has no repeats |
| TicTacToeBoard.FindLine | Tic-Tac-Toe/script.js:127 | `find` returns the first combo, in declaration order, whose three cells all hold the player; none is returned only when no combo is held |
| TicTacToeBoard.WinsHasThree | Tic-Tac-Toe/script.js:121-129 | a line found by `checkWinner` is a row, a column or a diagonal of the 3x3 grid |
| TicTacToeBoard.HasThreeWins | Tic-Tac-Toe/script.js:121-129 | every row, column and diagonal of the grid is among the combos `checkWinner` tries |
| TicTacToeBoard.WinsIffThreeInARow | Tic-Tac-Toe/script.js:121-129 | `checkWinner(b, p)` holds if and only if `p` has three in a row, column or diagonal |
| TicTacToeBoard.OtherMarkKeepsNoWin | Tic-Tac-Toe/script.js:121-129 | writing the opponent's mark into any cell cannot create a line for `p` |
| TicTacToeBoard.OwnMarkKeepsWin | Tic-Tac-Toe/script.js:121-129 | writing `p`'s own mark cannot destroy a line `p` holds |
| TicTacToeBoard.AvailableFrom | Tic-Tac-Toe/script.js:103 | the list of available cells is strictly increasing and holds exactly the empty cells |
| TicTacToeBoard.AvailableEmptyIffFull | Tic-Tac-Toe/script.js:58 | no cell is available exactly when `board.every(cell => cell)` holds |
| TicTacToeBoard.AvailablePosition | Tic-Tac-Toe/script.js:80 | every empty cell appears in the available list |
| Minimax.BestIndex | Tic-Tac-Toe/script.js:118 | the `reduce` picks a best move for the mover (O maximises, X minimises), and every earlier move is strictly worse |
| Minimax.Candidates | Tic-Tac-Toe/script.js:109-116 | the loop yields one move per available cell, in order, each scored -10, 0 or +10 |
| Minimax.Minimax | Tic-Tac-Toe/script.js:102-119 | every score is -10, 0 or +10 and every returned index is an empty cell |
| Minimax.MinimaxTerminalScores | Tic-Tac-Toe/script.js:105-107 | an X line scores -10 and is checked first, an O line +10, a full board 0; the result carries an index exactly on non-terminal boards |
| Minimax.MinimaxPicksFirstOptimalMove | Tic-Tac-Toe/script.js:102-119 | on a non-terminal board the search returns an empty cell whose child score no other empty cell beats for the mover, every earlier empty cell is strictly worse, and the score is that child's score |
| Minimax.ImmediateWinIsFound | Tic-Tac-Toe/script.js:102-119 | if the mover can complete a line at once, the board scores as that win: +10 for O, -10 for X |
| Minimax.LastCellIsChosen | Tic-Tac-Toe/script.js:102-119 | with one empty cell left and no line, the search answers that cell |
| Minimax.ReduceBest | Tic-Tac-Toe/script.js:118 | the loop form of the `reduce` returns the first best move, the same position as the recursive definition |
| Minimax.MinimaxInPlace | Tic-Tac-Toe/script.js:102-119 | the search on a shared mutable board returns the board to its input contents and agrees with the functional search |
| Minimax.CandidatesInPlace | Tic-Tac-Toe/script.js:109-116 | the place-search-undo loop restores the board and collects the same scored moves as the functional loop |
| Minimax.ScoreCell | Tic-Tac-Toe/script.js:111-114 | one pass of the loop scores the cell as the opponent's search of the marked board and clears the cell again |
| TicTacToe.Scores.Bump | Tic-Tac-Toe/script.js:54 | `scores[player]++` adds one to the player's score and leaves the other score alone |
| TicTacToe.MakeMove | Tic-Tac-Toe/script.js:46-65 | only cell `i` changes; the game is won exactly when `currentPlayer` holds a line, drawn exactly when there is no line and the board is full; a win scores a point for the mover and keeps the turn, a draw keeps turn and scores, otherwise the turn passes |
| TicTacToe.Click | Tic-Tac-Toe/script.js:32-42 | a click on a taken cell or after a win changes nothing; an accepted click marks the cell for the side to move; the computer is scheduled only in vs-computer mode with O to move |
| TicTacToe.EasyMove | Tic-Tac-Toe/script.js:79-82 | the random player returns an empty cell exactly when the board is not full |
| TicTacToe.EasyMoveReachesEveryEmptyCell | Tic-Tac-Toe/script.js:79-82 | every empty cell is the random player's answer for some draw |
| TicTacToe.ProbeX | Tic-Tac-Toe/script.js:85-94 | the probe returns the first empty cell where an X would satisfy the win test, and reports none only when no empty cell does |
| TicTacToe.MediumWith | Tic-Tac-Toe/script.js:84-96 | the medium player returns an empty cell exactly when the board is not full; when some empty cell makes the win test for the probed player hold after an X is placed there, it returns the first such cell, and otherwise it returns the easy player's pick |
| TicTacToe.MediumMove | Tic-Tac-Toe/script.js:84-96 | as written, the medium player returns an empty cell exactly when the board is not full; it returns the first empty cell where an X makes `checkWinner` hold for `currentPlayer`, or the easy player's pick when there is none |
| TicTacToe.MediumMoveIsEasyMoveForO | Tic-Tac-Toe/script.js:84-96 | with O to move and no O line, the medium player is the random player for every draw |
| TicTacToe.MediumMoveMissesBlock | Tic-Tac-Toe/script.js:84-96 | on a board where X wins next at cell 2, the medium player as written may answer cell 4 |
| TicTacToe.MediumMoveBlocking | Tic-Tac-Toe/script.js:84-96 | the corrected medium player returns an empty cell exactly when the board is not full |
| TicTacToe.MediumMoveBlockingBlocks | Tic-Tac-Toe/script.js:84-96 | whenever X could complete a line, the corrected medium player takes the first cell where X would |
| TicTacToe.HardMove | Tic-Tac-Toe/script.js:98-100 | the hard player yields an empty cell exactly on boards without a line that are not full |
| TicTacToe.HardMoveIsFirstOptimal | Tic-Tac-Toe/script.js:98-100 | the hard player's cell has the best child score for O and every earlier empty cell is strictly worse |
| TicTacToe.HardMovePrefersFirstWinOverFastest | Tic-Tac-Toe/script.js:105-118 | on `[X, X, _, O, O, _, _, _, _]` cell 5 wins at once, yet the hard player answers cell 2 |
| TicTacToe.ComputerMove | Tic-Tac-Toe/script.js:67-77 | the computer plays O, through `makeMove`, on exactly the cell the selected picker returns: the random cell, `mediumMove` as written, or the minimax index; it fails for easy and medium exactly on a full board, for hard exactly on a terminal board |
| TicTacToe.ResetGame | Tic-Tac-Toe/script.js:155-163 | after `resetGame` every cell accepts a click, X is to move and the scores are kept |
| TicTacToe.NoLineOnEmptyBoard | Tic-Tac-Toe/script.js:13 | nobody holds a line on the empty board |
| TicTacToe.ResetScores | Tic-Tac-Toe/script.js:165-168 | `resetScores` zeroes both scores and leaves board and turn alone |
| TicTacToe.InvBalancesMarks | Tic-Tac-Toe/script.js:46-65 | in every state satisfying the alternation invariant X has as many marks as O or one more |
| TicTacToe.StartSatisfiesInv | Tic-Tac-Toe/script.js:13-15 | the initial globals satisfy the alternation invariant |
| TicTacToe.ResetsKeepInv | Tic-Tac-Toe/script.js:155-168 | both resets keep the alternation invariant |
| TicTacToe.MoveKeepsInv | Tic-Tac-Toe/script.js:46-65 | the side to move playing an empty cell keeps the invariant, and a continuing game leaves the other side to move with no line on the board |
| TicTacToe.AcceptedOnlyToMove | Tic-Tac-Toe/script.js:36 | from a state satisfying the alternation invariant, the click guard admits a move only while the game is still running |
| TicTacToe.ClickKeepsInv | Tic-Tac-Toe/script.js:32-42 | every click keeps the alternation invariant |
| TicTacToe.ComputerScheduledAfterHumanTurn | Tic-Tac-Toe/script.js:38-40 | from a state satisfying the alternation invariant, in vs-computer mode the computer is scheduled exactly when X's accepted click leaves the game running |
| TicTacToe.ComputerMoveKeepsInv | Tic-Tac-Toe/script.js:67-77 | when the timer fires with O to move, the computer's move keeps the invariant |
| TicTacToe.ClickDuringWaitBreaksAlternation | Tic-Tac-Toe/script.js:32-42 | as written, X plays 0, a click during the 500 ms wait plays O at 4, and the easy computer plays O at 1: O is a mark ahead, O is to move, and the alternation invariant is broken |
| TicTacToe.ClickGuarded | Tic-Tac-Toe/script.js:32-42 | against the computer, a click through the guarded handler only ever places X: every click on O's turn is ignored, and other clicks behave as the click handler |
| TicTacToe.GuardedClickKeepsSession | Tic-Tac-Toe/script.js:32-42 | with the guard, every click keeps the alternation invariant, and a scheduled computer move leaves O to move with no line |
| TicTacToe.GuardedTimerKeepsSession | Tic-Tac-Toe/script.js:67-77 | with the guard, the pending computer move keeps the alternation invariant when it fires |
| TimerText.Decimal | Memory-Matching-Game/script.js:110 | an integer renders as a non-empty run of decimal digits, a single digit exactly below 10, with a leading `0` only for zero itself |
| TimerText.DecimalRoundTrip | Memory-Matching-Game/script.js:110 | reading the rendered digits gives back the integer |
| TimerText.PaddedSeconds | Memory-Matching-Game/script.js:110 | the seconds field is always two digits whose value is the seconds |
| TimerText.FormatTime | Memory-Matching-Game/script.js:106-111 | the timer text is minute digits without leading zeros, a colon, and two digits that give the seconds modulo 60 |
| TimerText.SixtyFiveSeconds | Memory-Matching-Game/script.js:108-110 | 65 elapsed seconds read `1:05` |
| TimerText.ParseFormatRoundTrip | Memory-Matching-Game/script.js:106-111 | parsing the timer text as minutes and seconds gives back the elapsed seconds |
| TimerText.StartTextIsZero | Memory-Matching-Game/script.js:46 | the `'0:00'` that `startGame` writes is the formatter's text for zero seconds |
| MemoryGame.PairIcons | Memory-Matching-Game/script.js:49 | the slice holds half as many icons as the level deals cards |
| MemoryGame.DeckIsPaired | Memory-Matching-Game/script.js:49-50 | every dealt deck has the table's size and holds each fruit exactly twice as often as the slice, an even number of times |
| MemoryGame.EightDistinctFruits | Memory-Matching-Game/script.js:8-11 | the first eight icons hold the apple and the banana once each |
| MemoryGame.TwoApplesAndBananas | Memory-Matching-Game/script.js:8-11 | any slice of 10 to 16 icons holds the apple and the banana twice each |
| MemoryGame.LargeDecksRepeatFruits | Memory-Matching-Game/script.js:13-19 | the 20- and 24-card levels deal the apple and the banana four times each |
| MemoryGame.StartGame | Memory-Matching-Game/script.js:36-62 | a new game deals the level's number of cards face down, zeroes pairs, moves and seconds, starts the timer, and keeps `isCheckingCards` |
| MemoryGame.Click | Memory-Matching-Game/script.js:64-80 | a click during a check, on a face-up card or with two cards up changes nothing; otherwise the card turns face up, a first card becomes the only entry of `flippedCards`, and the move counter grows by one exactly when a second card is turned |
| MemoryGame.UnflipFires | Memory-Matching-Game/script.js:97-102 | the delayed mismatch step empties `flippedCards` and clears the check, and leaves pairs, moves and deck alone |
| MemoryGame.Tick | Memory-Matching-Game/script.js:106-107 | a tick adds one second exactly while the interval runs |
| MemoryGame.MatchedPairsBounded | Memory-Matching-Game/script.js:86-92 | matched pairs never exceed the pairs dealt |
| MemoryGame.WonShowsAllCards | Memory-Matching-Game/script.js:92-95 | a won game shows every card face up with no card pending |
| MemoryGame.StartGameKeepsInv | Memory-Matching-Game/script.js:36-62 | starting a game from the page load or from any running game establishes the invariant |
| MemoryGame.ClickKeepsInv | Memory-Matching-Game/script.js:64-80 | every card click keeps the invariant |
| MemoryGame.SecondCardKeepsInv | Memory-Matching-Game/script.js:72-79 | turning the second card of a move keeps the invariant |
| MemoryGame.CheckForMatchKeepsInv | Memory-Matching-Game/script.js:82-104 | checking two distinct face-up cards keeps the invariant, match or mismatch |
| MemoryGame.UnflipFiresKeepsInv | Memory-Matching-Game/script.js:97-102 | the delayed mismatch step keeps the invariant |
| MemoryGame.TickKeepsInv | Memory-Matching-Game/script.js:106-111 | a timer tick keeps the invariant |
| MemoryGame.MatchKeepsCardsUp | Memory-Matching-Game/script.js:84-95 | a matching second card adds one pair at once, both cards stay face up, and the game is won exactly when all pairs are found |
| MemoryGame.MismatchBlocksUntilUnflip | Memory-Matching-Game/script.js:96-103 | a mismatching second card blocks every click until the delayed step, which turns both cards face down |
| CardGuess.Initialize | Card-Guess-Game/script.js:23-39 | a restart deals the four icons in some order, face up, with no selection and an empty message, and keeps any scheduled reshuffle |
| CardGuess.Verdict | Card-Guess-Game/script.js:55-62 | the guess is reported correct exactly when the guessed card carries the compared icon |
| CardGuess.Click | Card-Guess-Game/script.js:42-64 | the first click selects the card and schedules a reshuffle; clicking the selected card again only changes the message; another card is reported correct exactly when it carries the selected card's current icon |
| CardGuess.ReshuffleFires | Card-Guess-Game/script.js:67-74 | the reshuffle deals a permutation of the shuffled icons and hides every card, keeping the selection |
| CardGuess.InitializeEstablishesInv | Card-Guess-Game/script.js:23-39 | every restart leaves the four cards carrying the four icons |
| CardGuess.ClickKeepsInv | Card-Guess-Game/script.js:42-64 | clicks, under the handler as written and the corrected one, keep the four cards carrying the four icons |
| CardGuess.ReshuffleKeepsInv | Card-Guess-Game/script.js:67-74 | reshuffles keep the four cards carrying the four icons |
| CardGuess.CardsCarryDistinctIcons | Card-Guess-Game/script.js:7 | no two cards ever carry the same icon |
| CardGuess.NoGuessIsCorrect | Card-Guess-Game/script.js:56 | as written, no click is ever reported as a correct guess |
| CardGuess.ClickIntended | Card-Guess-Game/script.js:42-64 | the corrected handler matches the original except that a guess is correct exactly when it carries the icon the selected card had when clicked |
| CardGuess.IntendedGuessIsWinnable | Card-Guess-Game/script.js:42-64 | with the corrected comparison, unless the remembered icon came back to the selected card, exactly one other card is a correct guess |

## Left out

- The `animation-tricks` pages are not part of this model.
- Rendering is left out: cell and card text, the `winning` highlight
  (`highlightWinner`), the winner animation and announcement, the scoreboard
  text and the player names, the move counter and the win message. None of
  them feeds back into the logic.
- The settings listeners are left out. The vs-computer flag and the two
  difficulty selects are parameters. A change of the memory game's level
  restarts it, so `StartGame` takes the level.
- `dataset.index` is a string that indexes `board` like the number it spells.
  The model uses the number directly.
- The random draws are constrained only to their range. Their distribution is
  not modelled.
- JavaScript numbers are unbounded integers here. Scores, moves and seconds
  never come near 2^53 in play.
- The card-guess `<span>` keeps showing the icon dealt at restart after a
  reshuffle changes `data-icon`. That is display only and is not modelled.
- `checkForMatch` reads the level from the select when the last pair is
  found. The model uses the game's level: a change of the select restarts
  the game, so the two agree.
- Optimality from the empty board (a draw with best play) is not proved.
  Each property of the search is proved at one level of the tree, for all
  boards.
- TicTacToe.ComputerMoveKeepsInv: stated only when the timer fires with O to
  move. A human click during the 500 ms wait is accepted and plays O's mark.
  The computer then plays O again, which the alternation invariant does not
  cover.
- TicTacToe.InvBalancesMarks: proved only for states satisfying the
  alternation invariant, not for every reachable state. A click during the
  500 ms wait plays O's mark and the timer then plays O again, leaving X one
  mark and O two (TicTacToe.ClickDuringWaitBreaksAlternation).
- Minimax.MinimaxPicksFirstOptimalMove: states optimality against the
  search's own child scores, one ply deep. It does not state game-theoretic
  optimality over the whole tree.

## Findings

| source | as written | input that shows it | evidently intended | confidence | as-written member | corrected member |
|---|---|---|---|---|---|---|
| Tic-Tac-Toe/script.js:88 | `mediumMove` places an X and then calls `checkWinner()` with its default player, `currentPlayer`, which is O when the computer moves; O can never win by an X mark, so the probe never fires and the medium player plays like the easy one | board `[X, X, _, O, _, _, _, _, _]`, O to move: X wins next at cell 2, yet the medium player can answer cell 4 | `checkWinner(board, 'X')`, so that the computer blocks X's immediate win | not executed | TicTacToe.MediumMoveMissesBlock | TicTacToe.MediumMoveBlockingBlocks |
| Tic-Tac-Toe/script.js:36 | the click guard checks only that the cell is free and nobody has won; in vs-computer mode it accepts clicks while the computer's move is pending and plays them as O | X clicks 0, then clicks 4 within 500 ms, then the easy computer plays 1: the board is `[X, O, _, _, O, _, _, _, _]` with O to move | ignore clicks on O's turn when playing the computer | not executed | TicTacToe.ClickDuringWaitBreaksAlternation | TicTacToe.GuardedClickKeepsSession |
| Card-Guess-Game/script.js:56 | the guess is compared with the selected card's current `data-icon`, which the reshuffle has rewritten; the four icons are distinct, so a different card never matches and "You win!" is unreachable | select card 0, let the reshuffle fire, then click any other card: the message is always "Wrong guess!" | compare the guess with the icon the selected card showed when it was clicked | not executed | CardGuess.NoGuessIsCorrect | CardGuess.IntendedGuessIsWinnable |

=== FILE: board.dfy ===
/**
 * The tic-tac-toe board: nine cells in row-major order, each `null`, `'X'` or
 * `'O'`, and `checkWinner`, which looks for a winning triple of one player.
 */
module TicTacToeBoard {
  import opened Wrappers

  datatype Player = X | O
  datatype Cell = Empty | Mark(player: Player)

  type Index = i: int | 0 <= i < 9

  /** `Array(9).fill(null)`. */
  const EmptyBoard: seq<Cell> := [Empty, Empty, Empty, Empty, Empty, Empty, Empty, Empty, Empty]

  type Board = b: seq<Cell> | |b| == 9 witness EmptyBoard

  function Other(p: Player): Player {
    if p == X then O else X
  }

  /** `winningCombos`, in the order `find` visits them. */
  const WinLines: seq<(Index, Index, Index)> :=
    [(0, 1, 2), (3, 4, 5), (6, 7, 8),
     (0, 3, 6), (1, 4, 7), (2, 5, 8),
     (0, 4, 8), (2, 4, 6)]

  /** `combo.every(index => boardState[index] === player)`. */
  predicate LineHeld(b: Board, line: (Index, Index, Index), p: Player) {
    b[line.0] == Mark(p) && b[line.1] == Mark(p) && b[line.2] == Mark(p)
  }

  /** The combo at position `j` of `WinLines` is all `p`. */
  predicate HeldAt(b: Board, j: nat, p: Player)
    requires j < |WinLines|
  {
    LineHeld(b, WinLines[j], p)
  }

  /** `winningCombos.find(...)`: the position of the first held line at or after `k`. */
  function FindLine(b: Board, p: Player, k: nat): (r: Option<nat>)
    requires k <= |WinLines|
    ensures r.Some? ==> k <= r.value < |WinLines| && HeldAt(b, r.value, p)
    ensures r.Some? ==> forall j :: k <= j < r.value ==> !HeldAt(b, j, p)
    ensures r.None? ==> forall j :: k <= j < |WinLines| ==> !HeldAt(b, j, p)
    decreases |WinLines| - k
  {
    if k == |WinLines| then None
    else if HeldAt(b, k, p) then Some(k)
    else FindLine(b, p, k + 1)
  }

  /** `checkWinner(b, p)`: `!!winner`. */
  predicate Wins(b: Board, p: Player) {
    FindLine(b, p, 0).Some?
  }

  /** `board.every(cell => cell)`. */
  predicate Full(b: Board) {
    forall i :: 0 <= i < 9 ==> b[i] != Empty
  }

  /** Row `r`, column `c` of the grid (both in 0..2). */
  function At(b: Board, r: int, c: int): Cell
    requires 0 <= r < 3 && 0 <= c < 3
  {
    b[3 * r + c]
  }

  /** Three in a row, in a column or on a diagonal, read off the grid geometry. */
  predicate HasThree(b: Board, p: Player) {
    || (exists r :: 0 <= r < 3 && At(b, r, 0) == At(b, r, 1) == At(b, r, 2) == Mark(p))
    || (exists c :: 0 <= c < 3 && At(b, 0, c) == At(b, 1, c) == At(b, 2, c) == Mark(p))
    || (At(b, 0, 0) == At(b, 1, 1) == At(b, 2, 2) == Mark(p))
    || (At(b, 0, 2) == At(b, 1, 1) == At(b, 2, 0) == Mark(p))
  }

  /** A line found by `checkWinner` is a row, a column or a diagonal. */
  lemma WinsHasThree(b: Board, p: Player)
    requires Wins(b, p)
    ensures HasThree(b, p)
  {
    var k := FindLine(b, p, 0).value;
    if k < 3 {
      assert At(b, k, 0) == At(b, k, 1) == At(b, k, 2) == Mark(p);
    } else if k < 6 {
      assert At(b, 0, k - 3) == At(b, 1, k - 3) == At(b, 2, k - 3) == Mark(p);
    }
  }

  /** Every row, column and diagonal is one of the combos `checkWinner` tries. */
  lemma HasThreeWins(b: Board, p: Player)
    requires HasThree(b, p)
    ensures Wins(b, p)
  {
    if exists r :: 0 <= r < 3 && At(b, r, 0) == At(b, r, 1) == At(b, r, 2) == Mark(p) {
      var r :| 0 <= r < 3 && At(b, r, 0) == At(b, r, 1) == At(b, r, 2) == Mark(p);
      assert HeldAt(b, r, p);
    } else if exists c :: 0 <= c < 3 && At(b, 0, c) == At(b, 1, c) == At(b, 2, c) == Mark(p) {
      var c :| 0 <= c < 3 && At(b, 0, c) == At(b, 1, c) == At(b, 2, c) == Mark(p);
      assert HeldAt(b, 3 + c, p);
    } else if At(b, 0, 0) == At(b, 1, 1) == At(b, 2, 2) == Mark(p) {
      assert HeldAt(b, 6, p);
    } else {
      assert HeldAt(b, 7, p);
    }
  }

  /** `checkWinner` holds exactly when some row, column or diagonal is all `p`. */
  lemma WinsIffThreeInARow(b: Board, p: Player)
    ensures Wins(b, p) <==> HasThree(b, p)
  {
    if Wins(b, p) {
      WinsHasThree(b, p);
    }
    if HasThree(b, p) {
      HasThreeWins(b, p);
    }
  }

  /** Writing the other player's mark never completes a line for `p`. */
  lemma OtherMarkKeepsNoWin(b: Board, i: Index, p: Player)
    ensures Wins(b[i := Mark(Other(p))], p) ==> Wins(b, p)
  {
    var c := b[i := Mark(Other(p))];
    if Wins(c, p) {
      var k := FindLine(c, p, 0).value;
      assert HeldAt(b, k, p);
    }
  }

  /** Writing `p`'s mark never breaks a line `p` already holds. */
  lemma OwnMarkKeepsWin(b: Board, i: Index, p: Player)
    requires Wins(b, p)
    ensures Wins(b[i := Mark(p)], p)
  {
    var k := FindLine(b, p, 0).value;
    assert HeldAt(b[i := Mark(p)], k, p);
  }

  /** The indices of the `null` cells at or after `i`, in increasing order. */
  function AvailableFrom(b: Board, i: nat): (r: seq<Index>)
    requires i <= 9
    ensures forall k :: 0 <= k < |r| ==> i <= r[k] && b[r[k]] == Empty
    ensures forall k, l :: 0 <= k < l < |r| ==> r[k] < r[l]
    ensures forall j {:trigger j in r} :: i <= j < 9 && b[j] == Empty ==> j in r
    decreases 9 - i
  {
    if i == 9 then []
    else if b[i] == Empty then [i] + AvailableFrom(b, i + 1)
    else AvailableFrom(b, i + 1)
  }

  /** `board.map((cell, index) => cell === null ? index : null).filter(...)`. */
  function Available(b: Board): seq<Index> {
    AvailableFrom(b, 0)
  }

  lemma AvailableEmptyIffFull(b: Board)
    ensures |Available(b)| == 0 <==> Full(b)
  {
    if !Full(b) {
      var i :| 0 <= i < 9 && b[i] == Empty;
      assert i in Available(b);
    }
  }

  /** The position of an empty cell inside `Available(b)`. */
  lemma AvailablePosition(b: Board, i: Index) returns (k: nat)
    requires b[i] == Empty
    ensures k < |Available(b)| && Available(b)[k] == i
  {
    var a := Available(b);
    assert i in a;
    k :| 0 <= k < |a| && a[k] == i;
  }

  /** The number of cells equal to `c`. */
  function Count(s: seq<Cell>, c: Cell): nat {
    if |s| == 0 then 0
    else Count(s[..|s| - 1], c) + (if s[|s| - 1] == c then 1 else 0)
  }

  lemma {:induction false} CountUpdate(s: seq<Cell>, i: nat, v: Cell, c: Cell)
    requires i < |s|
    ensures Count(s[i := v], c) == Count(s, c) - (if s[i] == c then 1 else 0) + (if v == c then 1 else 0)
    decreases |s|
  {
    var t := s[i := v];
    var n := |s| - 1;
    if i < n {
      assert t[..n] == s[..n][i := v];
      CountUpdate(s[..n], i, v, c);
    } else {
      assert t[..n] == s[..n];
    }
  }

  lemma {:induction false} CountAbsent(s: seq<Cell>, c: Cell)
    requires forall k :: 0 <= k < |s| ==> s[k] != c
    ensures Count(s, c) == 0
    decreases |s|
  {
    if |s| > 0 {
      CountAbsent(s[..|s| - 1], c);
    }
  }
}

=== FILE: card_guess.dfy ===
/**
 * The card-guess game: four face-up fruit cards; the first click selects a
 * card and schedules a reshuffle that hides every card and deals the icons
 * anew; later clicks guess. The 1 s reshuffle delay is an event, and the
 * `hidden` class of card `k` is `hidden[k]`.
 */
module CardGuess {
  import opened Wrappers
  import opened Fruits
  import FisherYates

  /** `icons`. */
  const GuessIcons: seq<Fruit> := [Apple, Banana, Grapes, Strawberry]

  /** The texts the script writes into the result message. */
  datatype Message = Blank | Shuffling | SameCard | Correct | Wrong

  /**
   * `selectedCard`: the index of the card clicked first. `icon` records the
   * icon that card carried when it was clicked; the script does not read it.
   */
  datatype Selection = Selection(index: nat, icon: Fruit)

  /** The globals `shuffledCards` and `selectedCard`, the cards' icons and classes, and the scheduled reshuffles. */
  datatype Guess = Guess(
    shuffled: seq<Fruit>,
    cardIcons: seq<Fruit>,
    hidden: seq<bool>,
    selected: Option<Selection>,
    message: Message,
    pendingReshuffles: nat)

  /** The cards exist and their classes and icons are indexed alike. */
  predicate WellFormed(g: Guess) {
    && |g.shuffled| == |g.cardIcons| == |g.hidden|
    && (g.selected.Some? ==> g.selected.value.index < |g.cardIcons|)
  }

  /**
   * `initializeGame`: deal a shuffled copy of the icons face up and forget the
   * selection. A reshuffle scheduled before the restart is not cancelled.
   */
  function Initialize(g: Guess, picks: seq<nat>): (r: Guess)
    requires FisherYates.ValidPicks(picks, |GuessIcons|)
    ensures r.selected.None? && r.message == Blank
    ensures |r.cardIcons| == 4 && multiset(r.cardIcons) == multiset(GuessIcons)
    ensures forall k :: 0 <= k < |r.hidden| ==> !r.hidden[k]
    ensures r.pendingReshuffles == g.pendingReshuffles
  {
    FisherYates.ShuffledIsPermutation(GuessIcons, picks);
    var dealt := FisherYates.Shuffled(GuessIcons, picks);
    Guess(dealt, dealt, [false, false, false, false], None, Blank, g.pendingReshuffles)
  }

  /** The second-click branch: reveal both cards if card `k` carries `wanted`. */
  function Verdict(g: Guess, k: nat, wanted: Fruit): (r: Guess)
    requires WellFormed(g) && g.selected.Some? && k < |g.cardIcons|
    ensures r.message == Correct <==> g.cardIcons[k] == wanted
    ensures r.message == Wrong <==> g.cardIcons[k] != wanted
    ensures r.cardIcons == g.cardIcons && r.shuffled == g.shuffled && r.selected == g.selected
  {
    var s := g.selected.value.index;
    if g.cardIcons[k] == wanted then
      g.(message := Correct, hidden := g.hidden[k := false][s := false])
    else
      g.(message := Wrong)
  }

  /** `handleCardClick(card, k)` as written: the guess is compared with the selected card's current icon. */
  function Click(g: Guess, k: nat): (r: Guess)
    requires WellFormed(g) && k < |g.cardIcons|
    ensures g.selected.None? ==>
      r == g.(selected := Some(Selection(k, g.cardIcons[k])), message := Shuffling,
              pendingReshuffles := g.pendingReshuffles + 1)
    ensures g.selected.Some? && g.selected.value.index == k ==> r == g.(message := SameCard)
    ensures g.selected.Some? && g.selected.value.index != k ==>
      (r.message == Correct <==> g.cardIcons[k] == g.cardIcons[g.selected.value.index])
    ensures r.cardIcons == g.cardIcons && r.shuffled == g.shuffled
  {
    match g.selected
    case None =>
      g.(selected := Some(Selection(k, g.cardIcons[k])), message := Shuffling,
         pendingReshuffles := g.pendingReshuffles + 1)
    case Some(sel) =>
      if k == sel.index then g.(message := SameCard)
      else Verdict(g, k, g.cardIcons[sel.index])
  }

  /** `shuffleAndHideCards`, when one of the scheduled reshuffles fires. */
  function ReshuffleFires(g: Guess, picks: seq<nat>): (r: Guess)
    requires WellFormed(g) && g.pendingReshuffles > 0
    requires FisherYates.ValidPicks(picks, |g.shuffled|)
    ensures multiset(r.cardIcons) == multiset(g.shuffled)
    ensures |r.cardIcons| == |g.cardIcons|
    ensures forall k :: 0 <= k < |r.hidden| ==> r.hidden[k]
    ensures r.selected == g.selected && r.message == g.message
    ensures r.pendingReshuffles == g.pendingReshuffles - 1
  {
    FisherYates.ShuffledIsPermutation(g.shuffled, picks);
    var dealt := FisherYates.Shuffled(g.shuffled, picks);
    g.(shuffled := dealt, cardIcons := dealt, hidden := seq(|g.hidden|, _ => true),
       pendingReshuffles := g.pendingReshuffles - 1)
  }

  // ---------------------------------------------------------------------
  // The invariant: the four cards always carry the four icons.

  predicate Inv(g: Guess) {
    && WellFormed(g)
    && |g.cardIcons| == 4
    && g.cardIcons == g.shuffled
    && multiset(g.shuffled) == multiset(GuessIcons)
    && (g.selected.Some? ==> g.selected.value.icon in GuessIcons)
  }

  lemma InitializeEstablishesInv(g: Guess, picks: seq<nat>)
    requires FisherYates.ValidPicks(picks, |GuessIcons|)
    ensures Inv(Initialize(g, picks))
  {
  }

  lemma ClickKeepsInv(g: Guess, k: nat)
    requires Inv(g) && k < |g.cardIcons|
    ensures Inv(Click(g, k)) && Inv(ClickIntended(g, k))
  {
    if g.selected.None? {
      assert g.cardIcons[k] in multiset(GuessIcons);
    }
  }

  lemma ReshuffleKeepsInv(g: Guess, picks: seq<nat>)
    requires Inv(g) && g.pendingReshuffles > 0
    requires FisherYates.ValidPicks(picks, |g.shuffled|)
    ensures Inv(ReshuffleFires(g, picks))
  {
  }

  /** No two cards ever carry the same icon. */
  lemma CardsCarryDistinctIcons(g: Guess)
    requires Inv(g)
    ensures FisherYates.Distinct(g.cardIcons)
  {
    assert FisherYates.Distinct(GuessIcons);
    FisherYates.PermutationKeepsDistinct(GuessIcons, g.cardIcons);
  }

  /**
   * As written, a guess can never be right: the test compares the guessed
   * card with the selected card, and distinct cards carry distinct icons.
   */
  lemma NoGuessIsCorrect(g: Guess, k: nat)
    requires Inv(g) && k < |g.cardIcons|
    ensures Click(g, k).message != Correct
  {
    CardsCarryDistinctIcons(g);
  }

  /** `handleCardClick` comparing the guess with the icon the selected card had when it was clicked. */
  function ClickIntended(g: Guess, k: nat): (r: Guess)
    requires WellFormed(g) && k < |g.cardIcons|
    ensures g.selected.None? ==> r == Click(g, k)
    ensures g.selected.Some? && g.selected.value.index == k ==> r == Click(g, k)
    ensures g.selected.Some? && g.selected.value.index != k ==>
      (r.message == Correct <==> g.cardIcons[k] == g.selected.value.icon)
  {
    match g.selected
    case None => Click(g, k)
    case Some(sel) =>
      if k == sel.index then Click(g, k)
      else Verdict(g, k, sel.icon)
  }

  /**
   * With the intended comparison the game can be won: unless the reshuffle
   * dealt the remembered icon back to the selected card, exactly one other
   * card carries it, and guessing that card is correct.
   */
  lemma IntendedGuessIsWinnable(g: Guess)
    requires Inv(g) && g.selected.Some?
    requires g.cardIcons[g.selected.value.index] != g.selected.value.icon
    ensures exists k :: 0 <= k < 4 && k != g.selected.value.index && ClickIntended(g, k).message == Correct
    ensures forall k, k' :: 0 <= k < k' < 4 && ClickIntended(g, k).message == Correct ==> ClickIntended(g, k').message != Correct
  {
    var sel := g.selected.value;
    assert sel.icon in multiset(g.cardIcons);
    var k :| 0 <= k < 4 && g.cardIcons[k] == sel.icon;
    assert ClickIntended(g, k).message == Correct;
    CardsCarryDistinctIcons(g);
  }
}

=== FILE: fisher_yates.dfy ===
/**
 * The in-place Fisher-Yates `shuffle` shared, verbatim, by the memory-matching
 * and the card-guess games. `Math.random` is replaced by a supplied choice:
 * `picks[i]` is the `j` drawn when the loop is at `i`, and the script draws it
 * as `floor(random * (i + 1))`, so it always lies in `[0, i]`.
 */
module FisherYates {

  /** The choices one run of the shuffle can draw for an array of length `n`. */
  predicate ValidPicks(picks: seq<nat>, n: nat) {
    |picks| == n && forall i :: 0 <= i < n ==> picks[i] <= i
  }

  /** The destructuring swap `[a[i], a[j]] = [a[j], a[i]]`. */
  function Swap<T>(s: seq<T>, i: nat, j: nat): (r: seq<T>)
    requires i < |s| && j < |s|
    ensures |r| == |s|
    ensures r[i] == s[j] && r[j] == s[i]
    ensures forall k :: 0 <= k < |s| && k != i && k != j ==> r[k] == s[k]
  {
    s[i := s[j]][j := s[i]]
  }

  lemma SwapIsPermutation<T>(s: seq<T>, i: nat, j: nat)
    requires i < |s| && j < |s|
    ensures multiset(Swap(s, i, j)) == multiset(s)
  {
    var t := s[i := s[j]];
    assert multiset(t) == multiset(s) - multiset{s[i]} + multiset{s[j]};
    assert t[j] == (if i == j then s[j] else s[j]);
    assert multiset(t[j := s[i]]) == multiset(t) - multiset{t[j]} + multiset{s[i]};
  }

  /** The loop iterations for `i`, `i - 1`, ..., `1`, applied to `s`. */
  function Steps<T>(s: seq<T>, picks: seq<nat>, i: nat): seq<T>
    requires i < |s| && ValidPicks(picks, |s|)
    decreases i
  {
    if i == 0 then s
    else Steps(Swap(s, i, picks[i]), picks, i - 1)
  }

  /** What `shuffle(array)` leaves in (and returns as) `array`. */
  function Shuffled<T>(s: seq<T>, picks: seq<nat>): seq<T>
    requires ValidPicks(picks, |s|)
  {
    if |s| == 0 then s else Steps(s, picks, |s| - 1)
  }

  lemma {:induction false} StepsIsPermutation<T>(s: seq<T>, picks: seq<nat>, i: nat)
    requires i < |s| && ValidPicks(picks, |s|)
    ensures |Steps(s, picks, i)| == |s|
    ensures multiset(Steps(s, picks, i)) == multiset(s)
    decreases i
  {
    if i > 0 {
      SwapIsPermutation(s, i, picks[i]);
      StepsIsPermutation(Swap(s, i, picks[i]), picks, i - 1);
    }
  }

  /** Every outcome of the shuffle is a permutation of its input. */
  lemma ShuffledIsPermutation<T>(s: seq<T>, picks: seq<nat>)
    requires ValidPicks(picks, |s|)
    ensures |Shuffled(s, picks)| == |s|
    ensures multiset(Shuffled(s, picks)) == multiset(s)
  {
    if |s| > 0 {
      StepsIsPermutation(s, picks, |s| - 1);
    }
  }

  /** The `shuffle` loop, run over a fresh array holding a copy of `input`. */
  method Shuffle<T>(input: seq<T>, picks: seq<nat>) returns (r: seq<T>)
    requires ValidPicks(picks, |input|)
    ensures multiset(r) == multiset(input)
    ensures r == Shuffled(input, picks)
  {
    var a := new T[|input|](k requires 0 <= k < |input| => input[k]);
    assert a[..] == input;
    var i := |input| - 1;
    while i > 0
      invariant -1 <= i < |input|
      invariant |input| > 0 ==> 0 <= i
      invariant a.Length == |input|
      invariant |input| > 0 ==> Shuffled(input, picks) == Steps(a[..], picks, i)
    {
      var j := picks[i];
      ghost var before := a[..];
      a[i], a[j] := a[j], a[i];
      assert a[..] == Swap(before, i, j);
      i := i - 1;
    }
    r := a[..];
    if |input| == 0 {
      assert r == input;
    }
    ShuffledIsPermutation(input, picks);
  }

  /** A sequence without repetitions; the card-guess icons are one. */
  predicate Distinct<T(==)>(s: seq<T>) {
    forall i, j :: 0 <= i < j < |s| ==> s[i] != s[j]
  }

  lemma {:induction false} DistinctIffSingleCopies<T>(s: seq<T>)
    ensures Distinct(s) <==> forall x :: multiset(s)[x] <= 1
    decreases |s|
  {
    if |s| > 0 {
      var t := s[1..];
      assert s == [s[0]] + t;
      DistinctIffSingleCopies(t);
      if Distinct(s) {
        forall j | 0 <= j < |t| ensures t[j] != s[0] {
          assert t[j] == s[j + 1];
        }
        assert s[0] !in t;
        assert Distinct(t) by {
          forall i, j | 0 <= i < j < |t| ensures t[i] != t[j] {
            assert t[i] == s[i + 1] && t[j] == s[j + 1];
          }
        }
      } else {
        var i, j :| 0 <= i < j < |s| && s[i] == s[j];
        if i == 0 {
          assert s[j] == t[j - 1];
          assert multiset(s)[s[0]] == 1 + multiset(t)[s[0]];
        } else {
          assert t[i - 1] == t[j - 1];
          assert !Distinct(t);
          var x :| multiset(t)[x] > 1;
          assert multiset(s)[x] >= multiset(t)[x];
        }
      }
    }
  }

  /** A permutation of a sequence without repetitions has none either. */
  lemma PermutationKeepsDistinct<T>(s: seq<T>, r: seq<T>)
    requires Distinct(s) && multiset(r) == multiset(s)
    ensures Distinct(r)
  {
    DistinctIffSingleCopies(s);
    DistinctIffSingleCopies(r);
  }
}

=== FILE: fruits.dfy ===
/** The fruit emoji the two card games put on their cards. */
module Fruits {

  datatype Fruit = Apple | Banana | Grapes | Strawberry | Cherries | Pineapple | Kiwi | Watermelon
}

=== FILE: memory_game.dfy ===
/**
 * The memory-matching game: a deck of paired fruit cards built from the
 * difficulty table, and the flip/match state machine behind the card click
 * handler. The 1 s mismatch delay and the 1 s timer tick are events; the
 * `flipped` class of card `c` is `flipped[c]`.
 */
module MemoryGame {
  import opened Fruits
  import FisherYates

  /** `icons`: the eight fruits, listed twice. */
  const Icons: seq<Fruit> :=
    [Apple, Banana, Grapes, Strawberry, Cherries, Pineapple, Kiwi, Watermelon,
     Apple, Banana, Grapes, Strawberry, Cherries, Pineapple, Kiwi, Watermelon]

  /** The keys of `difficultySettings`. */
  datatype Level = Easy | Medium | Hard | Difficult | ExtraDifficult

  /** `difficultySettings[level]`: the number of cards dealt. */
  function TotalCards(level: Level): nat {
    match level
    case Easy => 8
    case Medium => 12
    case Hard => 16
    case Difficult => 20
    case ExtraDifficult => 24
  }

  /** `icons.slice(0, totalCards / 2)`: one icon per pair. */
  function PairIcons(level: Level): (s: seq<Fruit>)
    ensures |s| == TotalCards(level) / 2
  {
    Icons[..TotalCards(level) / 2]
  }

  /** `shuffle([...availableIcons, ...availableIcons])`. */
  function Deck(level: Level, picks: seq<nat>): seq<Fruit>
    requires FisherYates.ValidPicks(picks, TotalCards(level))
  {
    FisherYates.Shuffled(PairIcons(level) + PairIcons(level), picks)
  }

  /** Every dealt deck has the table's size and holds each fruit an even number of times. */
  lemma DeckIsPaired(level: Level, picks: seq<nat>)
    requires FisherYates.ValidPicks(picks, TotalCards(level))
    ensures |Deck(level, picks)| == TotalCards(level)
    ensures forall f: Fruit :: multiset(Deck(level, picks))[f] == 2 * multiset(PairIcons(level))[f]
    ensures forall f: Fruit :: multiset(Deck(level, picks))[f] % 2 == 0
  {
    DoubledIsPaired(PairIcons(level), picks);
  }

  /** Shuffling a list of icons written out twice gives every icon twice as often. */
  lemma DoubledIsPaired(p: seq<Fruit>, picks: seq<nat>)
    requires FisherYates.ValidPicks(picks, |p + p|)
    ensures |FisherYates.Shuffled(p + p, picks)| == |p + p|
    ensures forall f: Fruit :: multiset(FisherYates.Shuffled(p + p, picks))[f] == 2 * multiset(p)[f]
  {
    FisherYates.ShuffledIsPermutation(p + p, picks);
    assert multiset(p + p) == multiset(p) + multiset(p);
  }

  /** The first eight icons hold the apple and the banana once each. */
  lemma EightDistinctFruits()
    ensures multiset(Icons[..8])[Apple] == 1 && multiset(Icons[..8])[Banana] == 1
  {
    var e := Icons[..8];
    assert e == [Apple, Banana] + [Grapes, Strawberry, Cherries, Pineapple, Kiwi, Watermelon];
    assert multiset(e) == multiset{Apple, Banana} + multiset([Grapes, Strawberry, Cherries, Pineapple, Kiwi, Watermelon]);
  }

  /** The first `n` icons, for `n` from 10 to 16, hold the apple and the banana twice each. */
  lemma TwoApplesAndBananas(n: nat)
    requires 10 <= n <= 16
    ensures multiset(Icons[..n])[Apple] == 2 && multiset(Icons[..n])[Banana] == 2
  {
    EightDistinctFruits();
    var rest := Icons[10..n];
    assert Icons[..n] == Icons[..8] + [Apple, Banana] + rest;
    assert forall k :: 0 <= k < |rest| ==> rest[k] != Apple && rest[k] != Banana;
    assert Apple !in multiset(rest) && Banana !in multiset(rest);
  }

  /**
   * The 20- and 24-card levels slice past the eight distinct fruits, so the
   * apple and the banana are dealt four times.
   */
  lemma LargeDecksRepeatFruits(level: Level, picks: seq<nat>)
    requires level == Difficult || level == ExtraDifficult
    requires FisherYates.ValidPicks(picks, TotalCards(level))
    ensures multiset(Deck(level, picks))[Apple] == 4
    ensures multiset(Deck(level, picks))[Banana] == 4
  {
    DeckIsPaired(level, picks);
    TwoApplesAndBananas(TotalCards(level) / 2);
  }

  /** The delayed step `checkForMatch` scheduled after a mismatch. */
  datatype Pending =
    | NoPending
      /** unflip these two cards of the current deck */
    | Unflip(first: nat, second: nat)
      /** the game restarted since: the old cards are gone */
    | StaleUnflip

  /** The script's globals, the deck and the cards' `flipped` classes. */
  datatype Memory = Memory(
    level: Level,
    deck: seq<Fruit>,
    flipped: seq<bool>,
    flippedCards: seq<nat>,
    matchedPairs: nat,
    moves: nat,
    seconds: nat,
    checking: bool,
    timerRunning: bool,
    won: bool,
    pending: Pending)

  /** The state before the first `startGame`. */
  const Loaded: Memory := Memory(Easy, [], [], [], 0, 0, 0, false, false, false, NoPending)

  /** `startGame`. It leaves `isCheckingCards` alone, and a pending mismatch step still fires. */
  function StartGame(m: Memory, level: Level, picks: seq<nat>): (r: Memory)
    requires FisherYates.ValidPicks(picks, TotalCards(level))
    ensures r.flippedCards == [] && r.matchedPairs == 0 && r.moves == 0 && r.seconds == 0
    ensures |r.deck| == |r.flipped| == TotalCards(level)
    ensures forall c :: 0 <= c < |r.flipped| ==> !r.flipped[c]
    ensures r.timerRunning && !r.won && r.checking == m.checking
  {
    DeckIsPaired(level, picks);
    Memory(level, Deck(level, picks), seq(TotalCards(level), _ => false), [], 0, 0, 0,
           m.checking, true, false,
           if m.pending.Unflip? then StaleUnflip else m.pending)
  }

  /**
   * How many cards show their face. The board's `Count` counts cells; this
   * counts `true` classes, read from the back the same way so that the update
   * lemmas below have the same shape.
   */
  function FaceUp(s: seq<bool>): nat {
    if |s| == 0 then 0 else FaceUp(s[..|s| - 1]) + (if s[|s| - 1] then 1 else 0)
  }

  /** `checkForMatch`, right after the second card of a move is flipped. */
  function CheckForMatch(m: Memory): (r: Memory)
    requires |m.flippedCards| == 2
    requires forall k :: 0 <= k < 2 ==> m.flippedCards[k] < |m.deck|
  {
    var c1 := m.flippedCards[0];
    var c2 := m.flippedCards[1];
    if m.deck[c1] == m.deck[c2] then
      var r := m.(matchedPairs := m.matchedPairs + 1, flippedCards := [], checking := false);
      if r.matchedPairs == TotalCards(m.level) / 2 then r.(timerRunning := false, won := true) else r
    else
      m.(checking := true, pending := Unflip(c1, c2))
  }

  /** `handleCardClick` on card `c` of the current grid. */
  function Click(m: Memory, c: nat): (r: Memory)
    requires c < |m.deck| && |m.flipped| == |m.deck|
    requires forall k :: 0 <= k < |m.flippedCards| ==> m.flippedCards[k] < |m.deck|
    ensures m.checking ==> r == m
    ensures m.flipped[c] || |m.flippedCards| == 2 ==> r == m
    ensures r.moves == m.moves || r.moves == m.moves + 1
    ensures r.moves == m.moves + 1 <==> !m.checking && !m.flipped[c] && |m.flippedCards| == 1
    ensures !m.checking && !m.flipped[c] && |m.flippedCards| < 2 ==> r.flipped == m.flipped[c := true]
    ensures !m.checking && !m.flipped[c] && |m.flippedCards| == 0 ==> r.flippedCards == [c]
  {
    if m.checking then m
    else if m.flipped[c] || |m.flippedCards| == 2 then m
    else
      var m' := m.(flipped := m.flipped[c := true], flippedCards := m.flippedCards + [c]);
      if |m'.flippedCards| == 2 then CheckForMatch(m'.(moves := m.moves + 1)) else m'
  }

  /** Clears the `flipped` class of card `c` if it is in the grid. */
  function FaceDown(s: seq<bool>, c: nat): seq<bool> {
    if c < |s| then s[c := false] else s
  }

  /** The 1 s timeout scheduled after a mismatch fires. */
  function UnflipFires(m: Memory): (r: Memory)
    requires m.pending != NoPending
    ensures r.flippedCards == [] && !r.checking && r.pending == NoPending
    ensures r.matchedPairs == m.matchedPairs && r.moves == m.moves && r.deck == m.deck
  {
    var r := m.(flippedCards := [], checking := false, pending := NoPending);
    match m.pending
    case Unflip(c1, c2) => r.(flipped := FaceDown(FaceDown(m.flipped, c1), c2))
    case StaleUnflip => r
  }

  /** The 1 s interval runs `updateTimer` while it has not been cleared. */
  function Tick(m: Memory): (r: Memory)
    ensures r.seconds == if m.timerRunning then m.seconds + 1 else m.seconds
  {
    if m.timerRunning then m.(seconds := m.seconds + 1) else m
  }

  // ---------------------------------------------------------------------
  // The invariant of a running game.

  predicate Inv(m: Memory) {
    && |m.deck| == |m.flipped| == TotalCards(m.level)
    && |m.flippedCards| <= 2
    && FisherYates.Distinct(m.flippedCards)
    && (forall k :: 0 <= k < |m.flippedCards| ==> m.flippedCards[k] < |m.deck| && m.flipped[m.flippedCards[k]])
    && (m.checking <==> m.pending != NoPending)
    && (!m.checking ==> |m.flippedCards| <= 1)
    && (m.pending.Unflip? ==> m.flippedCards == [m.pending.first, m.pending.second])
    && (m.pending.StaleUnflip? ==> m.flippedCards == [])
    && 2 * m.matchedPairs + |m.flippedCards| == FaceUp(m.flipped)
    && (m.won <==> m.matchedPairs == TotalCards(m.level) / 2)
    && m.timerRunning == !m.won
  }

  lemma {:induction false} FaceUpBound(s: seq<bool>)
    ensures FaceUp(s) <= |s|
    ensures FaceUp(s) == |s| <==> forall k :: 0 <= k < |s| ==> s[k]
    decreases |s|
  {
    if |s| > 0 {
      var t := s[..|s| - 1];
      FaceUpBound(t);
      assert forall k :: 0 <= k < |t| ==> t[k] == s[k];
    }
  }

  lemma {:induction false} FaceUpUpdate(s: seq<bool>, c: nat, v: bool)
    requires c < |s|
    ensures FaceUp(s[c := v]) == FaceUp(s) - (if s[c] then 1 else 0) + (if v then 1 else 0)
    decreases |s|
  {
    var n := |s| - 1;
    if c < n {
      assert s[c := v][..n] == s[..n][c := v];
      FaceUpUpdate(s[..n], c, v);
    } else {
      assert s[c := v][..n] == s[..n];
    }
  }

  lemma {:induction false} FaceUpNone(n: nat)
    ensures FaceUp(seq(n, _ => false)) == 0
    decreases n
  {
    if n > 0 {
      assert seq(n, _ => false)[..n - 1] == seq(n - 1, _ => false);
      FaceUpNone(n - 1);
    }
  }

  /** The matched pairs never exceed the pairs dealt. */
  lemma MatchedPairsBounded(m: Memory)
    requires Inv(m)
    ensures m.matchedPairs <= TotalCards(m.level) / 2
    ensures |m.flippedCards| <= 2
  {
    FaceUpBound(m.flipped);
  }

  /** A won game shows every card face up. */
  lemma WonShowsAllCards(m: Memory)
    requires Inv(m) && m.won
    ensures forall c :: 0 <= c < |m.flipped| ==> m.flipped[c]
    ensures m.flippedCards == []
  {
    FaceUpBound(m.flipped);
  }

  lemma StartGameKeepsInv(m: Memory, level: Level, picks: seq<nat>)
    requires Inv(m) || m == Loaded
    requires FisherYates.ValidPicks(picks, TotalCards(level))
    ensures Inv(StartGame(m, level, picks))
  {
    FaceUpNone(TotalCards(level));
  }

  lemma ClickKeepsInv(m: Memory, c: nat)
    requires Inv(m) && c < |m.deck|
    ensures Inv(Click(m, c))
  {
    if !m.checking && !m.flipped[c] && |m.flippedCards| < 2 {
      FaceUpUpdate(m.flipped, c, true);
      if |m.flippedCards| == 1 {
        SecondCardKeepsInv(m, c);
      }
    }
  }

  /** The second card of a move, after which the pair is checked. */
  lemma SecondCardKeepsInv(m: Memory, c: nat)
    requires Inv(m) && c < |m.deck|
    requires !m.checking && !m.flipped[c] && |m.flippedCards| == 1
    ensures Inv(Click(m, c))
  {
    var c0 := m.flippedCards[0];
    FaceUpUpdate(m.flipped, c, true);
    FaceUpBound(m.flipped[c := true]);
    var n := m.(flipped := m.flipped[c := true], flippedCards := [c0, c], moves := m.moves + 1);
    assert Click(m, c) == CheckForMatch(n);
    CheckForMatchKeepsInv(n);
  }

  /** `checkForMatch` on two distinct face-up cards keeps the invariant. */
  lemma CheckForMatchKeepsInv(n: Memory)
    requires |n.deck| == |n.flipped| == TotalCards(n.level)
    requires |n.flippedCards| == 2 && n.flippedCards[0] != n.flippedCards[1]
    requires forall k :: 0 <= k < 2 ==> n.flippedCards[k] < |n.deck| && n.flipped[n.flippedCards[k]]
    requires !n.checking && n.pending == NoPending && !n.won && n.timerRunning
    requires 2 * n.matchedPairs + 2 == FaceUp(n.flipped) <= |n.flipped|
    ensures Inv(CheckForMatch(n))
  {
  }

  lemma UnflipFiresKeepsInv(m: Memory)
    requires Inv(m) && m.pending != NoPending
    ensures Inv(UnflipFires(m))
  {
    if m.pending.Unflip? {
      var c1 := m.pending.first;
      var c2 := m.pending.second;
      assert m.flippedCards[0] == c1 && m.flippedCards[1] == c2;
      FaceUpUpdate(m.flipped, c1, false);
      FaceUpUpdate(m.flipped[c1 := false], c2, false);
    }
  }

  lemma TickKeepsInv(m: Memory)
    requires Inv(m)
    ensures Inv(Tick(m))
  {
  }

  /**
   * A matching second card adds one pair and empties `flippedCards` at once;
   * both cards stay face up.
   */
  lemma MatchKeepsCardsUp(m: Memory, c: nat)
    requires Inv(m) && c < |m.deck|
    requires !m.checking && !m.flipped[c] && |m.flippedCards| == 1
    requires m.deck[m.flippedCards[0]] == m.deck[c]
    ensures var r := Click(m, c);
      && r.matchedPairs == m.matchedPairs + 1
      && r.flippedCards == [] && !r.checking
      && r.flipped[c] && r.flipped[m.flippedCards[0]]
      && (r.won <==> r.matchedPairs == TotalCards(m.level) / 2)
  {
    var c0 := m.flippedCards[0];
    assert m.flipped[c0];
    FaceUpBound(m.flipped);
    var n := m.(flipped := m.flipped[c := true], flippedCards := [c0, c], moves := m.moves + 1);
    assert Click(m, c) == CheckForMatch(n);
  }

  /**
   * A mismatching second card blocks every click until the delayed step,
   * which turns both cards face down again.
   */
  lemma MismatchBlocksUntilUnflip(m: Memory, c: nat, c': nat)
    requires Inv(m) && c < |m.deck| && c' < |m.deck|
    requires !m.checking && !m.flipped[c] && |m.flippedCards| == 1
    requires m.deck[m.flippedCards[0]] != m.deck[c]
    ensures var r := Click(m, c);
      && r.checking && r.matchedPairs == m.matchedPairs
      && Click(r, c') == r
      && var u := UnflipFires(r);
        !u.flipped[c] && !u.flipped[m.flippedCards[0]] && !u.checking && u.flippedCards == []
  {
    var r := Click(m, c);
    var c0 := m.flippedCards[0];
    assert r.pending == Unflip(c0, c) && r.checking;
    assert r.flipped[c] && r.flipped[c0];
    var u := UnflipFires(r);
    assert u.flipped == FaceDown(FaceDown(r.flipped, c0), c);
  }
}

=== FILE: minimax.dfy ===
/**
 * `minimax(newBoard, player)`: the exhaustive game-tree search behind the
 * "hard" computer player. O maximises, X minimises, terminal boards score
 * -10 (an X line, checked first), +10 (an O line) or 0 (a full board), and
 * scores are not adjusted for depth. Among equally good moves the first one
 * in index order is kept, because the final `reduce` only replaces its
 * accumulator on a strict improvement.
 */
module Minimax {
  import opened Wrappers
  import opened TicTacToeBoard

  /** One entry of `moves`: a candidate cell and the score found for it. */
  datatype Move = Move(index: Index, score: int)

  /** The object `minimax` returns: a score, and an index on non-terminal boards. */
  datatype Scored = Scored(score: int, index: Option<Index>)

  predicate IsScore(s: int) {
    s == -10 || s == 0 || s == 10
  }

  /** Whether `p` prefers score `a` to score `b`: O wants more, X wants less. */
  predicate Improves(p: Player, a: int, b: int) {
    if p == O then a > b else a < b
  }

  /** A board on which the search stops: a line for either player, or no empty cell. */
  predicate Terminal(b: Board) {
    Wins(b, X) || Wins(b, O) || Full(b)
  }

  /** `k` is the first position of a best entry of `ms` for `p`. */
  predicate FirstBest(p: Player, ms: seq<Move>, k: nat) {
    && k < |ms|
    && (forall j :: 0 <= j < |ms| ==> !Improves(p, ms[j].score, ms[k].score))
    && (forall j :: 0 <= j < k ==> Improves(p, ms[k].score, ms[j].score))
  }

  /**
   * The position of the entry `moves.reduce(...)` returns: the accumulator
   * starts at the first entry and is replaced only by a strictly better one.
   */
  function BestIndex(p: Player, ms: seq<Move>): (k: nat)
    requires |ms| > 0
    ensures FirstBest(p, ms, k)
    decreases |ms|
  {
    if |ms| == 1 then 0
    else
      var k := BestIndex(p, ms[..|ms| - 1]);
      if Improves(p, ms[|ms| - 1].score, ms[k].score) then |ms| - 1 else k
  }

  /** The empty cells of a board, as a set; it shrinks with every placement. */
  function Empties(b: Board): set<int> {
    set i | 0 <= i < 9 && b[i] == Empty
  }

  lemma EmptiesShrink(b: Board, i: Index, p: Player)
    requires b[i] == Empty
    ensures Empties(b[i := Mark(p)]) < Empties(b)
  {
    assert i in Empties(b) && i !in Empties(b[i := Mark(p)]);
  }

  /**
   * The loop body of `minimax` over the cells `idxs` (all empty): place the
   * mover's mark, search the resulting board for the opponent, undo.
   */
  function Candidates(b: Board, p: Player, idxs: seq<Index>): (ms: seq<Move>)
    requires forall k :: 0 <= k < |idxs| ==> b[idxs[k]] == Empty
    ensures |ms| == |idxs|
    ensures forall k :: 0 <= k < |ms| ==> ms[k].index == idxs[k] && IsScore(ms[k].score)
    decreases Empties(b), 0, |idxs|
  {
    if idxs == [] then []
    else
      var i := idxs[|idxs| - 1];
      EmptiesShrink(b, i, p);
      Candidates(b, p, idxs[..|idxs| - 1]) + [Move(i, Minimax(b[i := Mark(p)], Other(p)).score)]
  }

  function Minimax(b: Board, p: Player): (r: Scored)
    ensures IsScore(r.score)
    ensures r.index.Some? ==> b[r.index.value] == Empty
    decreases Empties(b), 1, 0
  {
    if Wins(b, X) then Scored(-10, None)
    else if Wins(b, O) then Scored(10, None)
    else
      var avail := Available(b);
      AvailableEmptyIffFull(b);
      if |avail| == 0 then Scored(0, None)
      else
        var ms := Candidates(b, p, avail);
        var k := BestIndex(p, ms);
        Scored(ms[k].score, Some(ms[k].index))
  }

  /**
   * Terminal boards: an X line scores -10 and is checked before an O line,
   * which scores +10; a full board without lines scores 0; none of them
   * yields a move. Every other board yields a move.
   */
  lemma MinimaxTerminalScores(b: Board, p: Player)
    ensures Wins(b, X) ==> Minimax(b, p) == Scored(-10, None)
    ensures !Wins(b, X) && Wins(b, O) ==> Minimax(b, p) == Scored(10, None)
    ensures !Wins(b, X) && !Wins(b, O) && Full(b) ==> Minimax(b, p) == Scored(0, None)
    ensures Minimax(b, p).index.Some? <==> !Terminal(b)
  {
    AvailableEmptyIffFull(b);
  }

  /** The score the search gives to `p` playing cell `i`. */
  function ChildScore(b: Board, p: Player, i: Index): int
    requires b[i] == Empty
  {
    Minimax(b[i := Mark(p)], Other(p)).score
  }

  lemma {:induction false} CandidateScores(b: Board, p: Player, idxs: seq<Index>)
    requires forall k :: 0 <= k < |idxs| ==> b[idxs[k]] == Empty
    ensures forall k :: 0 <= k < |idxs| ==> Candidates(b, p, idxs)[k].score == ChildScore(b, p, idxs[k])
    decreases |idxs|
  {
    if idxs != [] {
      CandidateScores(b, p, idxs[..|idxs| - 1]);
    }
  }

  /** On a non-terminal board the search returns the first best candidate. */
  lemma MinimaxUnfold(b: Board, p: Player)
    requires !Terminal(b)
    ensures |Available(b)| > 0
    ensures var ms := Candidates(b, p, Available(b));
      var k := BestIndex(p, ms);
      Minimax(b, p) == Scored(ms[k].score, Some(ms[k].index))
  {
    AvailableEmptyIffFull(b);
  }

  /**
   * On a non-terminal board the search answers with an empty cell whose
   * child score no other empty cell beats for the mover, and every empty
   * cell with a smaller index is strictly worse: the first optimal move.
   */
  lemma MinimaxPicksFirstOptimalMove(b: Board, p: Player)
    requires !Terminal(b)
    ensures Minimax(b, p).index.Some?
    ensures var i := Minimax(b, p).index.value;
      && b[i] == Empty
      && Minimax(b, p).score == ChildScore(b, p, i)
      && (forall j: Index :: b[j] == Empty ==> !Improves(p, ChildScore(b, p, j), ChildScore(b, p, i)))
      && (forall j: Index :: j < i && b[j] == Empty ==> Improves(p, ChildScore(b, p, i), ChildScore(b, p, j)))
  {
    MinimaxUnfold(b, p);
    var avail := Available(b);
    var ms := Candidates(b, p, avail);
    CandidateScores(b, p, avail);
    var k := BestIndex(p, ms);
    var i := avail[k];
    assert FirstBest(p, ms, k);
    forall j: Index | b[j] == Empty
      ensures !Improves(p, ChildScore(b, p, j), ChildScore(b, p, i))
      ensures j < i ==> Improves(p, ChildScore(b, p, i), ChildScore(b, p, j))
    {
      var t := AvailablePosition(b, j);
      assert ms[t].score == ChildScore(b, p, j);
      if j < i {
        assert t < k;
      }
    }
  }

  /**
   * If the mover can complete a line at once, the search scores the board
   * as that win: +10 for O, -10 for X.
   */
  lemma ImmediateWinIsFound(b: Board, p: Player, i: Index)
    requires !Terminal(b) && b[i] == Empty
    requires Wins(b[i := Mark(p)], p)
    ensures Minimax(b, p).score == (if p == O then 10 else -10)
  {
    MinimaxPicksFirstOptimalMove(b, p);
    if p == O {
      OtherMarkKeepsNoWin(b, i, X);
      assert ChildScore(b, p, i) == 10;
    } else {
      assert ChildScore(b, p, i) == -10;
    }
  }

  /**
   * With one empty cell left on a non-terminal board, that cell is the move.
   */
  lemma LastCellIsChosen(b: Board, p: Player, i: Index)
    requires !Terminal(b) && b[i] == Empty
    requires forall j: Index :: j != i ==> b[j] != Empty
    ensures Minimax(b, p).index == Some(i)
  {
    MinimaxPicksFirstOptimalMove(b, p);
  }

  /** The `reduce` at the end of `minimax`, as a loop over the collected moves. */
  method ReduceBest(p: Player, moves: seq<Move>) returns (best: nat)
    requires |moves| > 0
    ensures FirstBest(p, moves, best)
    ensures best == BestIndex(p, moves)
  {
    best := 0;
    var s := 1;
    while s < |moves|
      invariant 1 <= s <= |moves|
      invariant best == BestIndex(p, moves[..s])
    {
      assert moves[..s + 1][..s] == moves[..s];
      if Improves(p, moves[s].score, moves[best].score) {
        best := s;
      }
      s := s + 1;
    }
    assert moves[..s] == moves;
  }

  /**
   * `minimax` itself, on a shared mutable board: each candidate is
   * written, searched recursively and then reset to `null`, so that the board
   * is back to its input contents when the call returns.
   */
  method MinimaxInPlace(a: array<Cell>, p: Player) returns (r: Scored)
    requires a.Length == 9
    modifies a
    ensures a[..] == old(a[..])
    ensures r == Minimax(old(a[..]), p)
    decreases Empties(a[..]), 2
  {
    var b: Board := a[..];
    if Wins(b, X) {
      return Scored(-10, None);
    }
    if Wins(b, O) {
      return Scored(10, None);
    }
    var avail := Available(b);
    AvailableEmptyIffFull(b);
    if |avail| == 0 {
      return Scored(0, None);
    }
    var moves := CandidatesInPlace(a, p, avail);
    var best := ReduceBest(p, moves);
    r := Scored(moves[best].score, Some(moves[best].index));
  }

  /** The `for (const index of available)` loop of `minimax`. */
  method CandidatesInPlace(a: array<Cell>, p: Player, avail: seq<Index>) returns (moves: seq<Move>)
    requires a.Length == 9
    requires forall k :: 0 <= k < |avail| ==> a[avail[k]] == Empty
    modifies a
    ensures a[..] == old(a[..])
    ensures moves == Candidates(old(a[..]), p, avail)
    decreases Empties(a[..]), 1
  {
    var b: Board := a[..];
    moves := [];
    var t := 0;
    while t < |avail|
      invariant 0 <= t <= |avail|
      invariant a[..] == b
      invariant moves == Candidates(b, p, avail[..t])
    {
      var i := avail[t];
      assert a[i] == b[i] == Empty;
      var score := ScoreCell(a, p, i);
      assert avail[..t + 1] == avail[..t] + [i];
      CandidatesSnoc(b, p, avail[..t], i);
      moves := moves + [Move(i, score)];
      t := t + 1;
    }
    assert avail[..t] == avail;
  }

  /** Scoring one more cell appends one move. */
  lemma CandidatesSnoc(b: Board, p: Player, idxs: seq<Index>, i: Index)
    requires forall k :: 0 <= k < |idxs| ==> b[idxs[k]] == Empty
    requires b[i] == Empty
    ensures Candidates(b, p, idxs + [i])
         == Candidates(b, p, idxs) + [Move(i, Minimax(b[i := Mark(p)], Other(p)).score)]
  {
    assert (idxs + [i])[..|idxs|] == idxs;
  }

  /** One pass of that loop: mark cell `i`, search, and clear it again. */
  method ScoreCell(a: array<Cell>, p: Player, i: Index) returns (score: int)
    requires a.Length == 9 && a[i] == Empty
    modifies a
    ensures a[..] == old(a[..])
    ensures score == Minimax(old(a[..])[i := Mark(p)], Other(p)).score
    decreases Empties(a[..]), 0
  {
    var b: Board := a[..];
    EmptiesShrink(b, i, p);
    a[i] := Mark(p);
    assert a[..] == b[i := Mark(p)];
    var child := MinimaxInPlace(a, Other(p));
    score := child.score;
    a[i] := Empty;
    assert a[..] == b;
  }
}

=== FILE: tictactoe.dfy ===
/**
 * The tic-tac-toe session: the grid click handler, `makeMove`, the three
 * computer players and the two resets. The DOM `taken` class is the same as
 * a cell being non-null, and the scheduled callbacks (`computerMove` after
 * 500 ms, `resetGame` after 3 s) are separate events the caller applies.
 */
module TicTacToe {
  import opened Wrappers
  import opened TicTacToeBoard
  import Minimax

  /** The `scores` object, `{ X: 0, O: 0 }` at start. */
  datatype Scores = Scores(x: nat, o: nat) {
    function Of(p: Player): nat {
      if p == X then x else o
    }

    /** `scores[p]++`. */
    function Bump(p: Player): (r: Scores)
      ensures r.Of(p) == Of(p) + 1 && r.Of(Other(p)) == Of(Other(p))
    {
      if p == X then this.(x := x + 1) else this.(o := o + 1)
    }
  }

  /** The script's globals `board`, `currentPlayer` and `scores`. */
  datatype Game = Game(board: Board, current: Player, scores: Scores)

  /** Which branch of `makeMove` ran; a finished game schedules `resetGame`. */
  datatype Outcome = Won | Drawn | Continues

  /** The difficulty select; any value other than easy or medium plays hard. */
  datatype Difficulty = Easy | Medium | Hard

  const Start: Game := Game(EmptyBoard, X, Scores(0, 0))

  /**
   * `makeMove(index, player)`. The win test is `checkWinner()` with its
   * defaults, that is for `currentPlayer`, while the point goes to `player`.
   */
  function MakeMove(g: Game, i: Index, p: Player): (r: (Game, Outcome))
    ensures r.0.board[i] == Mark(p)
    ensures forall j: Index :: j != i ==> r.0.board[j] == g.board[j]
    ensures r.1 == Won <==> Wins(r.0.board, g.current)
    ensures r.1 == Drawn <==> !Wins(r.0.board, g.current) && Full(r.0.board)
    ensures r.1 == Won ==>
      r.0.current == g.current && r.0.scores.Of(p) == g.scores.Of(p) + 1 && r.0.scores.Of(Other(p)) == g.scores.Of(Other(p))
    ensures r.1 == Drawn ==> r.0.current == g.current && r.0.scores == g.scores
    ensures r.1 == Continues ==> r.0.current == Other(g.current) && r.0.scores == g.scores
  {
    var b := g.board[i := Mark(p)];
    if Wins(b, g.current) then (g.(board := b, scores := g.scores.Bump(p)), Won)
    else if Full(b) then (g.(board := b), Drawn)
    else (g.(board := b, current := Other(g.current)), Continues)
  }

  /** The guard of the grid click handler. */
  predicate Accepts(g: Game, i: Index) {
    g.board[i] == Empty && !Wins(g.board, g.current)
  }

  /** The state after a click, the `makeMove` branch taken, and whether `computerMove` was scheduled. */
  datatype ClickResult = ClickResult(game: Game, outcome: Option<Outcome>, computerScheduled: bool)

  /** A click on cell `i`, with the vs-computer checkbox set to `vsComputer`. */
  function Click(g: Game, i: Index, vsComputer: bool): (r: ClickResult)
    ensures r.game != g ==> Accepts(g, i)
    ensures !Accepts(g, i) ==> r == ClickResult(g, None, false)
    ensures Accepts(g, i) ==> r.outcome.Some? && r.game.board == g.board[i := Mark(g.current)]
    ensures r.computerScheduled ==> vsComputer && r.game.current == O
  {
    if !Accepts(g, i) then ClickResult(g, None, false)
    else
      var (g', outcome) := MakeMove(g, i, g.current);
      ClickResult(g', Some(outcome), vsComputer && g'.current == O && !Wins(g'.board, g'.current))
  }

  /**
   * `easyMove`: `available[Math.floor(Math.random() * available.length)]`.
   * The random draw is `k`; on a full board the draw is 0 and the result is
   * `undefined`.
   */
  function EasyMove(b: Board, k: nat): (r: Option<Index>)
    requires k < |Available(b)| || k == 0
    ensures r.Some? <==> !Full(b)
    ensures r.Some? ==> b[r.value] == Empty
  {
    AvailableEmptyIffFull(b);
    var avail := Available(b);
    if k < |avail| then Some(avail[k]) else None
  }

  /** Every empty cell is the easy move for some draw. */
  lemma EasyMoveReachesEveryEmptyCell(b: Board, i: Index)
    requires b[i] == Empty
    ensures exists k: nat :: k < |Available(b)| && EasyMove(b, k) == Some(i)
  {
    var k := AvailablePosition(b, i);
    assert EasyMove(b, k) == Some(i);
  }

  /**
   * The probe loop of `mediumMove` from cell `i` on: the first empty cell
   * where an X would make `checkWinner` hold for `target`.
   */
  function ProbeX(b: Board, target: Player, i: nat): (r: Option<Index>)
    requires i <= 9
    ensures r.Some? ==> i <= r.value && b[r.value] == Empty && Wins(b[r.value := Mark(X)], target)
    ensures r.Some? ==> forall j: Index :: i <= j < r.value && b[j] == Empty ==> !Wins(b[j := Mark(X)], target)
    ensures r.None? ==> forall j: Index :: i <= j && b[j] == Empty ==> !Wins(b[j := Mark(X)], target)
    decreases 9 - i
  {
    if i == 9 then None
    else if b[i] == Empty && Wins(b[i := Mark(X)], target) then Some(i)
    else ProbeX(b, target, i + 1)
  }

  /** A medium move whose probe tests `checkWinner` for `target`, else the easy move. */
  function MediumWith(b: Board, target: Player, k: nat): (r: Option<Index>)
    requires k < |Available(b)| || k == 0
    ensures r.Some? <==> !Full(b)
    ensures r.Some? ==> b[r.value] == Empty
    ensures (exists j: Index :: b[j] == Empty && Wins(b[j := Mark(X)], target)) ==>
      r.Some? && Wins(b[r.value := Mark(X)], target)
      && forall j: Index :: j < r.value && b[j] == Empty ==> !Wins(b[j := Mark(X)], target)
    ensures (forall j: Index :: b[j] == Empty ==> !Wins(b[j := Mark(X)], target)) ==> r == EasyMove(b, k)
  {
    match ProbeX(b, target, 0)
    case Some(i) => Some(i)
    case None => EasyMove(b, k)
  }

  /**
   * `mediumMove` as written: the probe calls `checkWinner()` with its default
   * player, `currentPlayer`, rather than `'X'`.
   */
  function MediumMove(b: Board, current: Player, k: nat): (r: Option<Index>)
    requires k < |Available(b)| || k == 0
    ensures r.Some? <==> !Full(b)
    ensures r.Some? ==> b[r.value] == Empty
    ensures (exists j: Index :: b[j] == Empty && Wins(b[j := Mark(X)], current)) ==>
      r.Some? && Wins(b[r.value := Mark(X)], current)
      && forall j: Index :: j < r.value && b[j] == Empty ==> !Wins(b[j := Mark(X)], current)
    ensures (forall j: Index :: b[j] == Empty ==> !Wins(b[j := Mark(X)], current)) ==> r == EasyMove(b, k)
  {
    MediumWith(b, current, k)
  }

  /**
   * On the computer's turn (`currentPlayer` is O, and O holds no line) the
   * probe never succeeds, so the medium player is the easy player.
   */
  lemma MediumMoveIsEasyMoveForO(b: Board, k: nat)
    requires k < |Available(b)| || k == 0
    requires !Wins(b, O)
    ensures MediumMove(b, O, k) == EasyMove(b, k)
  {
    forall j: Index | b[j] == Empty
      ensures !Wins(b[j := Mark(X)], O)
    {
      OtherMarkKeepsNoWin(b, j, O);
    }
    assert ProbeX(b, O, 0).None?;
  }

  /** X holds cells 0 and 1 and threatens the top row at cell 2; O holds cell 3. */
  const ThreatBoard: Board := [Mark(X), Mark(X), Empty, Mark(O), Empty, Empty, Empty, Empty, Empty]

  lemma ThreatBoardHasNoOLine()
    ensures !Wins(ThreatBoard, O)
  {
    forall k | 0 <= k < |WinLines|
      ensures !HeldAt(ThreatBoard, k, O)
    {
    }
  }

  /** On `ThreatBoard` X wins at cell 2, yet the medium player may answer cell 4. */
  lemma MediumMoveMissesBlock()
    ensures Wins(ThreatBoard[2 := Mark(X)], X)
    ensures exists k: nat :: k < |Available(ThreatBoard)| && MediumMove(ThreatBoard, O, k) == Some(4)
  {
    assert HeldAt(ThreatBoard[2 := Mark(X)], 0, X);
    ThreatBoardHasNoOLine();
    var k := AvailablePosition(ThreatBoard, 4);
    MediumMoveIsEasyMoveForO(ThreatBoard, k);
    assert MediumMove(ThreatBoard, O, k) == Some(4);
  }

  /** `mediumMove` with the probe testing for X, as the placed `'X'` implies. */
  function MediumMoveBlocking(b: Board, k: nat): (r: Option<Index>)
    requires k < |Available(b)| || k == 0
    ensures r.Some? <==> !Full(b)
    ensures r.Some? ==> b[r.value] == Empty
  {
    MediumWith(b, X, k)
  }

  /**
   * Whenever X could win at once, the corrected medium player takes the
   * first cell where X would complete a line.
   */
  lemma MediumMoveBlockingBlocks(b: Board, k: nat, i: Index) returns (m: Index)
    requires k < |Available(b)| || k == 0
    requires b[i] == Empty && Wins(b[i := Mark(X)], X)
    ensures MediumMoveBlocking(b, k) == Some(m)
    ensures m <= i && b[m] == Empty && Wins(b[m := Mark(X)], X)
    ensures forall j: Index :: j < m && b[j] == Empty ==> !Wins(b[j := Mark(X)], X)
  {
    m := ProbeX(b, X, 0).value;
  }

  /** `hardMove`: the index chosen by `minimax(board, 'O')`. */
  function HardMove(b: Board): (r: Option<Index>)
    ensures r.Some? <==> !Minimax.Terminal(b)
    ensures r.Some? ==> b[r.value] == Empty
  {
    Minimax.MinimaxTerminalScores(b, O);
    Minimax.Minimax(b, O).index
  }

  /** The hard player picks the first empty cell with the best minimax value for O. */
  lemma HardMoveIsFirstOptimal(b: Board)
    requires !Minimax.Terminal(b)
    ensures var i := HardMove(b).value;
      && b[i] == Empty
      && (forall j: Index :: b[j] == Empty ==> Minimax.ChildScore(b, O, j) <= Minimax.ChildScore(b, O, i))
      && (forall j: Index :: j < i && b[j] == Empty ==> Minimax.ChildScore(b, O, j) < Minimax.ChildScore(b, O, i))
  {
    Minimax.MinimaxPicksFirstOptimalMove(b, O);
  }

  /** X holds cells 0 and 1, O holds cells 3 and 4; O is to move and can win at cell 5. */
  const RaceBoard: Board := [Mark(X), Mark(X), Empty, Mark(O), Mark(O), Empty, Empty, Empty, Empty]

  /**
   * After O takes cell 2 on `RaceBoard`, O threatens cells 5 and 6 at once,
   * so every X reply leaves O an immediate win.
   */
  lemma RaceReplyLoses(j: Index)
    requires RaceBoard[2 := Mark(O)][j] == Empty
    ensures Minimax.ChildScore(RaceBoard[2 := Mark(O)], X, j) == 10
  {
    var d := RaceBoard[2 := Mark(O)][j := Mark(X)];
    forall k | 0 <= k < |WinLines|
      ensures !HeldAt(d, k, X) && !HeldAt(d, k, O)
    {
    }
    var w := if j == 5 then 6 else 5;
    assert d[w] == Empty;
    assert HeldAt(d[w := Mark(O)], if j == 5 then 7 else 1, O);
    Minimax.ImmediateWinIsFound(d, O, w);
  }

  lemma RaceBoardsOpen()
    ensures !Wins(RaceBoard, X) && !Wins(RaceBoard, O)
    ensures !Wins(RaceBoard[2 := Mark(O)], X) && !Wins(RaceBoard[2 := Mark(O)], O)
  {
    var c := RaceBoard[2 := Mark(O)];
    forall k | 0 <= k < |WinLines|
      ensures !HeldAt(RaceBoard, k, X) && !HeldAt(RaceBoard, k, O)
      ensures !HeldAt(c, k, X) && !HeldAt(c, k, O)
    {
    }
  }

  /** Taking cell 2 on `RaceBoard` is worth +10 to O. */
  lemma RaceCellTwoWins()
    ensures Minimax.ChildScore(RaceBoard, O, 2) == 10
  {
    var c := RaceBoard[2 := Mark(O)];
    RaceBoardsOpen();
    assert c[5] == Empty;
    Minimax.MinimaxPicksFirstOptimalMove(c, X);
    RaceReplyLoses(Minimax.Minimax(c, X).index.value);
  }

  /**
   * Scores carry no depth, so the hard player takes cell 2, which wins two
   * moves later, rather than cell 5, which wins at once: cell 2 scores the
   * same +10 and comes first.
   */
  lemma HardMovePrefersFirstWinOverFastest()
    ensures Wins(RaceBoard[5 := Mark(O)], O)
    ensures HardMove(RaceBoard) == Some(2)
  {
    assert HeldAt(RaceBoard[5 := Mark(O)], 1, O);
    RaceBoardsOpen();
    assert RaceBoard[2] == Empty;
    RaceCellTwoWins();
    HardMoveIsFirstOptimal(RaceBoard);
  }

  /**
   * `computerMove` once its 500 ms timer fires: pick a cell and play O there.
   * `None` is the script's failure when the picker yields `undefined`. The
   * medium player is `mediumMove` as written.
   */
  function ComputerMove(g: Game, d: Difficulty, k: nat): (r: Option<(Game, Outcome)>)
    requires k < |Available(g.board)| || k == 0
    ensures r.Some? ==> exists i: Index :: g.board[i] == Empty && r.value == MakeMove(g, i, O)
    ensures d != Hard ==> (r.Some? <==> !Full(g.board))
    ensures d == Hard ==> (r.Some? <==> !Minimax.Terminal(g.board))
    ensures d == Easy && r.Some? ==>
      EasyMove(g.board, k).Some? && r.value == MakeMove(g, EasyMove(g.board, k).value, O)
    ensures d == Medium && r.Some? ==>
      MediumMove(g.board, g.current, k).Some? && r.value == MakeMove(g, MediumMove(g.board, g.current, k).value, O)
    ensures d == Hard && r.Some? ==>
      HardMove(g.board).Some? && r.value == MakeMove(g, HardMove(g.board).value, O)
  {
    var pick := match d
      case Easy => EasyMove(g.board, k)
      case Medium => MediumMove(g.board, g.current, k)
      case Hard => HardMove(g.board);
    if pick.None? then None else Some(MakeMove(g, pick.value, O))
  }

  /** `resetGame`: an empty board with X to move; the scores are kept. */
  function ResetGame(g: Game): (r: Game)
    ensures forall i: Index :: Accepts(r, i)
    ensures r.current == X
    ensures r.scores == g.scores
  {
    assert forall i: Index :: EmptyBoard[i] == Empty;
    NoLineOnEmptyBoard(X);
    g.(board := EmptyBoard, current := X)
  }

  lemma NoLineOnEmptyBoard(p: Player)
    ensures !Wins(EmptyBoard, p)
  {
    forall k | 0 <= k < |WinLines|
      ensures !HeldAt(EmptyBoard, k, p)
    {
      assert EmptyBoard[WinLines[k].0] == Empty;
    }
  }

  /** `resetScores`: both scores back to zero; board and turn untouched. */
  function ResetScores(g: Game): (r: Game)
    ensures r.scores.Of(X) == 0 && r.scores.Of(O) == 0
    ensures r.board == g.board && r.current == g.current
  {
    g.(scores := Scores(0, 0))
  }

  // ---------------------------------------------------------------------
  // The alternation invariant of a session.

  function MarksOf(b: Board, p: Player): nat {
    Count(b, Mark(p))
  }

  /** The side to move has made as many moves as its opponent, and nobody has a line. */
  predicate ToMove(g: Game) {
    && (if g.current == X then MarksOf(g.board, X) == MarksOf(g.board, O)
        else MarksOf(g.board, X) == MarksOf(g.board, O) + 1)
    && !Wins(g.board, X) && !Wins(g.board, O)
  }

  /** `currentPlayer` made the last move and it ended the game. */
  predicate Finished(g: Game) {
    && (if g.current == X then MarksOf(g.board, X) == MarksOf(g.board, O) + 1
        else MarksOf(g.board, X) == MarksOf(g.board, O))
    && (Wins(g.board, g.current) || Full(g.board))
  }

  predicate Inv(g: Game) {
    ToMove(g) || Finished(g)
  }

  /** The invariant gives the alternation the board must show: X leads by at most one. */
  lemma InvBalancesMarks(g: Game)
    requires Inv(g)
    ensures MarksOf(g.board, X) == MarksOf(g.board, O) || MarksOf(g.board, X) == MarksOf(g.board, O) + 1
  {
  }

  lemma StartSatisfiesInv()
    ensures Inv(Start)
  {
    NoLineOnEmptyBoard(X);
    NoLineOnEmptyBoard(O);
    CountAbsent(EmptyBoard, Mark(X));
    CountAbsent(EmptyBoard, Mark(O));
  }

  lemma ResetsKeepInv(g: Game)
    requires Inv(g)
    ensures Inv(ResetGame(g)) && Inv(ResetScores(g))
  {
    StartSatisfiesInv();
    assert ResetGame(g).board == Start.board;
  }

  /** Playing the side to move on an empty cell of a `ToMove` state lands in the invariant. */
  lemma MoveKeepsInv(g: Game, i: Index)
    requires ToMove(g) && g.board[i] == Empty
    ensures Inv(MakeMove(g, i, g.current).0)
    ensures MakeMove(g, i, g.current).1 == Continues ==> ToMove(MakeMove(g, i, g.current).0)
  {
    var p := g.current;
    var r := MakeMove(g, i, p);
    var b' := r.0.board;
    CountUpdate(g.board, i, Mark(p), Mark(X));
    CountUpdate(g.board, i, Mark(p), Mark(O));
    if r.1 == Continues {
      assert Mark(p) == Mark(Other(Other(p)));
      OtherMarkKeepsNoWin(g.board, i, Other(p));
      assert !Wins(b', Other(p));
      assert !Wins(b', p);
    }
  }

  /** An accepted click is only possible from a `ToMove` state. */
  lemma AcceptedOnlyToMove(g: Game, i: Index)
    requires Inv(g) && Accepts(g, i)
    ensures ToMove(g)
  {
  }

  lemma ClickKeepsInv(g: Game, i: Index, vsComputer: bool)
    requires Inv(g)
    ensures Inv(Click(g, i, vsComputer).game)
  {
    if Accepts(g, i) {
      MoveKeepsInv(g, i);
    }
  }

  /**
   * In a session the computer is scheduled exactly when X's click leaves the
   * game running; in particular never after a win or a draw.
   */
  lemma ComputerScheduledAfterHumanTurn(g: Game, i: Index)
    requires Inv(g) && Accepts(g, i)
    ensures Click(g, i, true).computerScheduled <==>
      g.current == X && Click(g, i, true).outcome == Some(Continues)
  {
    var r := MakeMove(g, i, g.current);
    CountUpdate(g.board, i, Mark(g.current), Mark(X));
    CountUpdate(g.board, i, Mark(g.current), Mark(O));
    if r.1 == Drawn && g.current == O {
      FullBoardCounts(r.0.board);
      assert false;
    }
    if r.1 == Continues {
      MoveKeepsInv(g, i);
    }
  }

  /** A full board holds nine marks. */
  lemma FullBoardCounts(b: Board)
    requires Full(b)
    ensures MarksOf(b, X) + MarksOf(b, O) == 9
  {
    FullCount(b);
  }

  lemma {:induction false} FullCount(s: seq<Cell>)
    requires forall k :: 0 <= k < |s| ==> s[k] != Empty
    ensures Count(s, Mark(X)) + Count(s, Mark(O)) == |s|
    decreases |s|
  {
    if |s| > 0 {
      var t := s[..|s| - 1];
      assert forall k :: 0 <= k < |t| ==> t[k] == s[k];
      FullCount(t);
      assert s[|s| - 1] != Empty;
      assert s[..|s| - 1] == t;
      match s[|s| - 1].player
      case X =>
      case O =>
    }
  }

  /**
   * When the 500 ms timer fires on O's turn, with no click in between, the
   * computer's move keeps the invariant.
   */
  lemma ComputerMoveKeepsInv(g: Game, d: Difficulty, k: nat)
    requires g.current == O && ToMove(g)
    requires k < |Available(g.board)| || k == 0
    ensures ComputerMove(g, d, k).Some? ==> Inv(ComputerMove(g, d, k).value.0)
  {
    var r := ComputerMove(g, d, k);
    if r.Some? {
      var i: Index :| g.board[i] == Empty && r.value == MakeMove(g, i, O);
      MoveKeepsInv(g, i);
    }
  }

  // ---------------------------------------------------------------------
  // A click while the computer's move is pending.

  /** The board after X plays 0, a click plays O at 4 during the wait, and the timer plays O at 1. */
  const RaceClickBoard: Board := [Mark(X), Mark(O), Empty, Empty, Mark(O), Empty, Empty, Empty, Empty]

  lemma RaceClickBoardHasNoLine()
    ensures !Wins(RaceClickBoard, X) && !Wins(RaceClickBoard, O)
  {
    forall k | 0 <= k < |WinLines|
      ensures !HeldAt(RaceClickBoard, k, X) && !HeldAt(RaceClickBoard, k, O)
    {
    }
  }

  lemma RaceClickBoardMarks()
    ensures MarksOf(RaceClickBoard, X) == 1 && MarksOf(RaceClickBoard, O) == 2
  {
    var b1 := EmptyBoard[0 := Mark(X)];
    var b2 := b1[4 := Mark(O)];
    assert b2[1 := Mark(O)] == RaceClickBoard;
    forall c: Cell | c != Empty
      ensures Count(EmptyBoard, c) == 0
    {
      CountAbsent(EmptyBoard, c);
    }
    CountUpdate(EmptyBoard, 0, Mark(X), Mark(X));
    CountUpdate(EmptyBoard, 0, Mark(X), Mark(O));
    CountUpdate(b1, 4, Mark(O), Mark(X));
    CountUpdate(b1, 4, Mark(O), Mark(O));
    CountUpdate(b2, 1, Mark(O), Mark(X));
    CountUpdate(b2, 1, Mark(O), Mark(O));
  }

  /** X's first click on cell 0 schedules the computer with O to move. */
  lemma RaceFirstClick()
    ensures Click(Start, 0, true) == ClickResult(Game(EmptyBoard[0 := Mark(X)], O, Scores(0, 0)), Some(Continues), true)
  {
    NoLineOnEmptyBoard(X);
    OtherMarkKeepsNoWin(EmptyBoard, 0, O);
    assert EmptyBoard[0 := Mark(X)][1] == Empty;
  }

  /** A click on cell 4 during the wait is accepted and plays O's mark. */
  lemma RaceSecondClick()
    ensures var g := Game(EmptyBoard[0 := Mark(X)], O, Scores(0, 0));
      Click(g, 4, true) == ClickResult(Game(g.board[4 := Mark(O)], X, Scores(0, 0)), Some(Continues), false)
  {
    var b1 := EmptyBoard[0 := Mark(X)];
    NoLineOnEmptyBoard(O);
    OtherMarkKeepsNoWin(EmptyBoard, 0, X);
    OtherMarkKeepsNoWin(b1, 4, X);
    assert b1[4 := Mark(O)][1] == Empty;
  }

  /** After the two clicks, the first available cell is 1. */
  lemma RaceEasyPick()
    ensures EasyMove(EmptyBoard[0 := Mark(X)][4 := Mark(O)], 0) == Some(1)
  {
    var b2 := EmptyBoard[0 := Mark(X)][4 := Mark(O)];
    assert Available(b2)[0] == 1 by {
      assert b2[0] != Empty && b2[1] == Empty;
    }
  }

  /**
   * The easy computer plays O on the cell its first draw picks, and the game
   * continues when that leaves no line for `currentPlayer` and a free cell.
   */
  lemma EasyTimerContinues(g: Game, i: Index)
    requires EasyMove(g.board, 0) == Some(i)
    requires !Wins(g.board[i := Mark(O)], g.current) && !Full(g.board[i := Mark(O)])
    ensures ComputerMove(g, Easy, 0) == Some((g.(board := g.board[i := Mark(O)], current := Other(g.current)), Continues))
  {
  }

  /** The timer then plays O at cell 1, the first available cell. */
  lemma RaceTimerFires()
    ensures var g := Game(EmptyBoard[0 := Mark(X)][4 := Mark(O)], X, Scores(0, 0));
      ComputerMove(g, Easy, 0) == Some((Game(RaceClickBoard, O, Scores(0, 0)), Continues))
  {
    var b2 := EmptyBoard[0 := Mark(X)][4 := Mark(O)];
    RaceEasyPick();
    assert b2[1 := Mark(O)] == RaceClickBoard;
    RaceClickBoardHasNoLine();
    assert RaceClickBoard[2] == Empty;
    EasyTimerContinues(Game(b2, X, Scores(0, 0)), 1);
  }

  /**
   * As written, the click guard does not wait for the scheduled computer
   * move: the human's second click plays O's mark, and the timer then plays O
   * again, leaving O a mark ahead with O still to move.
   */
  lemma ClickDuringWaitBreaksAlternation()
    ensures var c1 := Click(Start, 0, true);
      && c1.computerScheduled
      && var c2 := Click(c1.game, 4, true);
      && c2.outcome == Some(Continues)
      && ComputerMove(c2.game, Easy, 0).Some?
      && var g := ComputerMove(c2.game, Easy, 0).value.0;
        g.board == RaceClickBoard && g.current == O && !Inv(g)
  {
    RaceFirstClick();
    RaceSecondClick();
    RaceTimerFires();
    RaceClickBoardMarks();
  }

  /** The click handler with the guard the computer mode needs: no clicks on O's turn. */
  function ClickGuarded(g: Game, i: Index, vsComputer: bool): (r: ClickResult)
    ensures vsComputer && g.current == O ==> r == ClickResult(g, None, false)
    ensures !(vsComputer && g.current == O) ==> r == Click(g, i, vsComputer)
    ensures vsComputer && r.game != g ==> r.game.board == g.board[i := Mark(X)]
  {
    if vsComputer && g.current == O then ClickResult(g, None, false) else Click(g, i, vsComputer)
  }

  /** A vs-computer session: the alternation invariant, and O to move while the computer's move is pending. */
  predicate SessionInv(g: Game, pending: bool) {
    Inv(g) && (pending ==> ToMove(g) && g.current == O)
  }

  /** With the guard, every click keeps the session invariant; a scheduled move becomes pending. */
  lemma GuardedClickKeepsSession(g: Game, pending: bool, i: Index)
    requires SessionInv(g, pending)
    ensures var r := ClickGuarded(g, i, true);
      SessionInv(r.game, pending || r.computerScheduled)
  {
    if !(g.current == O) {
      ClickKeepsInv(g, i, true);
      if Accepts(g, i) {
        ComputerScheduledAfterHumanTurn(g, i);
        MoveKeepsInv(g, i);
      }
    }
  }

  /**
   * With the guard, the pending computer move keeps the session invariant when
   * it fires. The second requires is `SessionInv(g, true)` written out.
   */
  lemma GuardedTimerKeepsSession(g: Game, d: Difficulty, k: nat)
    requires g.current == O && ToMove(g)
    requires k < |Available(g.board)| || k == 0
    ensures ComputerMove(g, d, k).Some? ==> SessionInv(ComputerMove(g, d, k).value.0, false)
    ensures ComputerMove(g, d, k).None? ==> SessionInv(g, false)
  {
    ComputerMoveKeepsInv(g, d, k);
  }
}

=== FILE: timer_text.dfy ===
/**
 * `updateTimer`'s rendering of the elapsed seconds as `m:ss`: minutes in
 * plain decimal, a colon, and the seconds zero-padded to two digits.
 */
module TimerText {
  import opened Wrappers

  const Digits: string := "0123456789"

  predicate IsDigit(c: char) {
    '0' <= c <= '9'
  }

  function DigitChar(d: nat): (c: char)
    requires d < 10
    ensures IsDigit(c) && c as int - '0' as int == d
  {
    Digits[d]
  }

  function DigitValue(c: char): nat
    requires IsDigit(c)
  {
    c as int - '0' as int
  }

  /** The decimal text of `n`, as a template literal renders an integer. */
  function Decimal(n: nat): (s: string)
    ensures |s| > 0 && forall k :: 0 <= k < |s| ==> IsDigit(s[k])
    ensures n < 10 <==> |s| == 1
    ensures s[0] == '0' ==> n == 0
    decreases n
  {
    if n < 10 then [DigitChar(n)] else Decimal(n / 10) + [DigitChar(n % 10)]
  }

  /** The value of a string of decimal digits. */
  function ValueOf(s: string): nat
    requires forall k :: 0 <= k < |s| ==> IsDigit(s[k])
  {
    if |s| == 0 then 0 else ValueOf(s[..|s| - 1]) * 10 + DigitValue(s[|s| - 1])
  }

  lemma {:induction false} DecimalRoundTrip(n: nat)
    ensures ValueOf(Decimal(n)) == n
    decreases n
  {
    if n >= 10 {
      var s := Decimal(n);
      assert s[..|s| - 1] == Decimal(n / 10);
      DecimalRoundTrip(n / 10);
    }
  }

  /** The seconds field: `${seconds < 10 ? '0' : ''}${seconds}`. */
  function PaddedSeconds(secs: nat): (s: string)
    requires secs < 60
    ensures |s| == 2 && IsDigit(s[0]) && IsDigit(s[1])
    ensures DigitValue(s[0]) * 10 + DigitValue(s[1]) == secs
  {
    assert secs >= 10 ==> Decimal(secs) == [DigitChar(secs / 10), DigitChar(secs % 10)];
    (if secs < 10 then "0" else "") + Decimal(secs)
  }

  /** The text `updateTimer` writes for `seconds` elapsed. */
  function FormatTime(seconds: nat): (t: string)
    ensures |t| >= 4 && t[|t| - 3] == ':'
    ensures forall k :: 0 <= k < |t| && k != |t| - 3 ==> IsDigit(t[k])
    ensures DigitValue(t[|t| - 2]) * 10 + DigitValue(t[|t| - 1]) == seconds % 60
    ensures t[0] == '0' ==> |t| == 4 && seconds < 60
  {
    var minutes := seconds / 60;
    var secs := seconds % 60;
    Decimal(minutes) + ":" + PaddedSeconds(secs)
  }

  /** The position of the first `c` in `t`, if any. */
  function IndexOf(t: string, c: char): (r: Option<nat>)
    ensures r.Some? ==> r.value < |t| && t[r.value] == c && forall k :: 0 <= k < r.value ==> t[k] != c
    ensures r.None? ==> forall k :: 0 <= k < |t| ==> t[k] != c
  {
    if |t| == 0 then None
    else if t[0] == c then Some(0)
    else match IndexOf(t[1..], c)
      case None => None
      case Some(k) => Some(k + 1)
  }

  /**
   * Reads an `m:ss` text back: one or more minute digits, a colon and exactly
   * two second digits below 60.
   */
  function ParseTime(t: string): Option<nat> {
    match IndexOf(t, ':')
    case None => None
    case Some(k) =>
      var mins := t[..k];
      var secs := t[k + 1..];
      if |mins| > 0 && |secs| == 2
        && (forall i :: 0 <= i < |mins| ==> IsDigit(mins[i]))
        && IsDigit(secs[0]) && IsDigit(secs[1])
        && DigitValue(secs[0]) * 10 + DigitValue(secs[1]) < 60
      then Some(ValueOf(mins) * 60 + DigitValue(secs[0]) * 10 + DigitValue(secs[1]))
      else None
  }

  /** Parsing the timer text gives back the elapsed seconds. */
  lemma ParseFormatRoundTrip(seconds: nat)
    ensures ParseTime(FormatTime(seconds)) == Some(seconds)
  {
    var t := FormatTime(seconds);
    var m := Decimal(seconds / 60);
    var k := |t| - 3;
    assert t[..|m|] == m;
    assert |m| == k by {
      assert |t| == |m| + 3;
    }
    assert IndexOf(t, ':') == Some(k);
    DecimalRoundTrip(seconds / 60);
  }

  /** The minutes carry no leading zero: 65 seconds read `1:05`. */
  lemma SixtyFiveSeconds()
    ensures FormatTime(65) == "1:05"
  {
    assert Decimal(1) == "1";
    assert Decimal(5) == "5";
  }

  /** `startGame` writes `'0:00'`, the same text the formatter gives for 0. */
  lemma StartTextIsZero()
    ensures FormatTime(0) == "0:00"
  {
  }
}

=== FILE: wrappers.dfy ===
/** The optional value used where the scripts yield `undefined` or `null`. */
module Wrappers {

  datatype Option<+T> = None | Some(value: T)
}
